=== FILE: README.md ===
# ifdyndnsd core in Dafny

ifdyndnsd watches the addresses of network interfaces and keeps DNS records
pointing at them by sending TSIG-signed dynamic updates (RFC 2136, RFC 8945).
This project models the decision logic of that daemon and proves properties
of the model:

- **RecordStates** (`src/lib.rs`). A record's lifecycle:
  - construction from its configuration, with default scopes and error cases;
  - address adoption (`set_address`) and the retry rule (`can_update`, `next_timeout`);
  - the push itself (`update`, `update_addr`), including the IPv6 neighbour records derived from the record's own /64 prefix.
- **EventLoop** (`src/lib.rs`, `run`). One step of the main loop:
  - an address notice is handed to every record of its interface;
  - an idle tick pushes exactly the first updatable record in table order, then recomputes the wait.
- **Ifaces** (`src/ifaces.rs`). The netlink side:
  - decoding raw address buffers;
  - choosing the reported address of an address message (local before address, temporary flag dropped);
  - taking a link's name;
  - the index-to-name table that the watcher keeps.
- **DnsName** and **Tsig** (`src/dns/tsig.rs`, `src/dns/tsig2.rs`). The TSIG signer:
  - algorithm names and their reverse lookup;
  - the 48-bit time encoding;
  - the TSIG RDATA layout and a parser for it;
  - the bytes fed to the MAC, and the signature record.
- **Config** (`src/config.rs`). The rule that exactly one of the four secret sources of a key may be set.
- **Bytes**, **IpAddr** and **Wrappers** hold big-endian integers, addresses, CIDR containment, and `Option`/`Result`.

The two TSIG files are two versions of the same signer, written against different HMAC crate versions. Their logic is identical, so a single `Tsig` module models both.

Some things the daemon does not compute itself, so the model takes them as parameters:
- the HMAC function (`Tsig.MacFn`);
- the DNS server's answers to queries and updates (`RecordStates.DnsServer`);
- file reads and base64 decoding (`Config.SecretIo`);
- the clock (`now`, in whole seconds).

A few behaviours are modelled as the code has them:
- **Wait after an idle tick.** The loop computes `now - state_timeout` only when the deadline is still in the future. `Instant` subtraction saturates at zero, so that branch always yields a zero wait. As a result, any dirty record makes the next wait 0, whether its retry deadline has passed or not (`EventLoop.Tick`, `EventLoop.PendingRetryGivesZeroWait`). With a zero wait, `timeout(0, recv())` expires at once, so the loop spins without sleeping until `can_update` lets the retry through once `RETRY_INTERVAL` (60 s) has elapsed.
- **Temporary-address filter.** `IFA_F_TEMPORARY` is bit 0x01, the same bit as `IFA_F_SECONDARY`. The filter therefore also drops secondary IPv4 addresses.
- **Several candidate addresses.** The last in-scope address announced wins; there is no tie-break among several addresses.
- **Retries.** Retries use a fixed 60 s interval, with no backoff and no limit on the number of attempts.
- **TSIG algorithms.** The signer offers only HMAC-SHA224/256/384/512.
- **Record inputs.** `RecordState::new` reads `name`, `zone`, `ttl`, `scope` and `neighbors` from the update task, as `src/lib.rs` uses them. `src/config.rs` is not consistent with that usage, and the model follows `src/lib.rs`.
- **Name comparison.** DNS names compare case-insensitively, as trust-dns names do. `Tsig.FromName` therefore accepts `HMAC-SHA256.` as well as `hmac-sha256.`.

## Model

| member | source | states |
|---|---|---|
| Bytes.U16 | src/dns/tsig2.rs:193 | `emit_u16` writes two bytes that read back big-endian as the value |
| Bytes.U32 | src/dns/tsig2.rs:205 | `emit_u32` writes four bytes that read back big-endian as the value |
| Bytes.EmitU48 | src/dns/tsig2.rs:203-207 | six bytes whose big-endian value is the time modulo 2^48; an in-range time reads back exactly |
| Bytes.EmitU48Truncates | src/dns/tsig.rs:205-209 | bits above 48 of the `u64` time never reach the wire: emitting `n` and `n mod 2^48` give the same bytes |
| IpAddr.SegmentsOf | src/lib.rs:153-154 | segment `i` of an IPv6 address is the big-endian value of octets `2i, 2i+1` |
| IpAddr.FromSegments | src/lib.rs:155-165 | building an address from eight segments writes each segment big-endian at its octet pair |
| IpAddr.SegmentsRoundTrip | src/lib.rs:153-165 | segments of an address built from segments are those segments |
| IpAddr.OctetsRoundTrip | src/lib.rs:153-165 | building from the segments of an address gives back that address |
| IpAddr.DeriveNeighbor | src/lib.rs:151-165 | a neighbour address takes segments 0-3 (the upper 8 bytes) from the record's address and segments 4-7 (the lower 8 bytes) from the configured host part |
| IpAddr.NeighborExample | src/lib.rs:151-165 | the prefix 2001:db8::/64 with host part ::2de:adff:fe00:beef gives 2001:db8::2de:adff:fe00:beef |
| IpAddr.Contains | src/lib.rs:93 | a scope contains only addresses of its own family; it contains its own network address, and a zero-length prefix contains every address of the family |
| IpAddr.AnyV4Contains | src/lib.rs:47-48 | the IPv4 default scope 0.0.0.0/0 contains exactly the IPv4 addresses |
| IpAddr.GlobalUnicastContains | src/lib.rs:49 | the IPv6 default scope 2000::/3 contains exactly the IPv6 addresses whose first byte is in 0x20..0x3f |
| IpAddr.DefaultScopesValid | src/lib.rs:47-51 | both default scopes are well-formed CIDRs of their family |
| RecordStates.DefaultScope | src/lib.rs:47-51 | with no configured scope, IPv4 records use 0.0.0.0/0 and IPv6 records use 2000::/3 |
| RecordStates.RecordTypeOf | src/lib.rs:175-178 | an IPv4 address is written as an A record and an IPv6 address as an AAAA record |
| RecordStates.New | src/lib.rs:42-89 | neighbours on an A record are refused first with the neighbours error; otherwise a scope of the wrong family is refused with the scope-mismatch error naming that scope and family; otherwise the state starts with no address, not dirty, never tried, TTL defaulting to 0, and satisfies the record invariant (a well-formed scope, dirty only with an in-scope address) |
| RecordStates.SetAddress | src/lib.rs:91-106 | the address is adopted iff it is in scope and differs from the current one; adopting sets dirty and clears the last attempt; otherwise nothing changes; the invariant (dirty implies an in-scope address) is preserved |
| RecordStates.SetAddressIdempotent | src/lib.rs:97-100 | announcing the same address twice changes nothing the second time |
| RecordStates.CanUpdate | src/lib.rs:108-122 | a clean record never updates; a dirty untried record updates at once; a dirty tried record updates iff 60 s have passed since the attempt |
| RecordStates.NextTimeout | src/lib.rs:124-133 | a deadline exists iff the record is dirty; a dirty record never tried is due now; after an attempt it is the attempt time plus 60 s |
| RecordStates.CanUpdateIffDeadlinePassed | src/lib.rs:108-133 | `can_update` holds exactly when `next_timeout` gives a deadline that has been reached |
| RecordStates.CanUpdateMonotone | src/lib.rs:117-120 | once a record may update, it still may at any later time |
| RecordStates.UpdateAddr | src/lib.rs:174-197 | no update is sent iff the server already answers exactly the one wanted address for the name and record type; otherwise the outcome is the server's verdict on an update with the record's zone and TTL |
| RecordStates.NeighborTargets | src/lib.rs:151-165 | an IPv4 record has no neighbour targets; an IPv6 record has one per configured neighbour, at the derived address |
| RecordStates.Update | src/lib.rs:137-172 | the attempt time becomes now; only dirty and the attempt time change; the main name is pushed iff configured; the record stays dirty iff that push failed; neighbours are pushed only after the main push succeeds or is skipped, each through `update_addr` with the record's zone and TTL, so an up-to-date neighbour is skipped like the main name; the invariant is preserved |
| RecordStates.PushNeighbors | src/lib.rs:151-170 | every neighbour target is attempted once, and it is skipped exactly when the server already answers that neighbour's name with the derived address |
| RecordStates.RetryAfterInterval | src/lib.rs:137-149 | after an attempt, the record may update again iff the push failed and at least 60 s have passed since the attempt |
| RecordStates.UpdatableHasAddress | src/lib.rs:141 | under the invariant, a record that may update has an address, so `update`'s unwrap cannot fail |
| RecordStates.NewAddressResetsRetry | src/lib.rs:102-105 | a newly adopted address may be pushed at once, whatever the previous retry deadline |
| RecordStates.FirstAddressScenario | src/lib.rs:42-172 | an A record with the default scope adopts 127.0.1.1, may push at once, sends the update with the zone and TTL 0, and stays dirty iff the server refuses |
| EventLoop.SetAll | src/lib.rs:251-256 | every record of the interface receives the address, in order |
| EventLoop.Offer | src/lib.rs:250-257 | a group keeps its interface and size; on the named interface every record is offered the address in turn, any other interface's group is returned unchanged; record validity is kept |
| EventLoop.Notify | src/lib.rs:248-258 | only the named interface's records change; the wait becomes the idle timeout iff some record adopted the address, otherwise the loop is unchanged; well-formedness is preserved |
| EventLoop.NotifyIdempotent | src/lib.rs:248-258 | a repeated notice leaves the loop unchanged |
| EventLoop.FirstUpdatable | src/lib.rs:269-274 | the result is the first record from `k` on that may update, or none when no such record exists |
| EventLoop.FirstInTable | src/lib.rs:268-275 | the result is the first updatable record in table order, with no updatable record before it, or none when no record may update |
| EventLoop.SaturatingSub | src/lib.rs:285 | `Instant` subtraction never goes below zero: it is the difference when the first time is later, and zero otherwise |
| EventLoop.IntervalOver | src/lib.rs:279-291 | over one interface, any dirty record drives the wait to 0; with none dirty the wait is unchanged |
| EventLoop.IntervalOverTable | src/lib.rs:277-292 | over the whole table, the wait is 0 iff some record is dirty, and otherwise unchanged |
| EventLoop.PushAt | src/lib.rs:270-272 | pushing one record replaces exactly that record by its updated state, keeps the table's shape and keeps every record valid |
| EventLoop.Tick | src/lib.rs:263-292 | an idle tick updates exactly the first updatable record and leaves every other record as it was; the next wait is 0 iff some record is still dirty, and the never-timeout otherwise |
| EventLoop.Step | src/lib.rs:245-295 | the loop ends exactly on disconnect; an address notice is handled by `Notify` and an idle timeout by `Tick`; otherwise the table keeps its shape and invariant |
| EventLoop.AtMostOneUpdatePerTick | src/lib.rs:268-275 | two records changed by one tick are the same record |
| EventLoop.TickPushesFirstUpdatable | src/lib.rs:268-275 | if any record may update, a tick pushes one, and no record before it in table order could update |
| EventLoop.PendingRetryGivesZeroWait | src/lib.rs:280-289 | a record tried 10 s ago has its deadline 50 s ahead, yet the recomputed wait is 0 |
| Ifaces.BufToAddr | src/ifaces.rs:155-167 | a buffer decodes iff it is 4 or 16 bytes long, and the address has exactly those octets |
| Ifaces.Collect | src/ifaces.rs:127-134 | every collected address, local or flags value is the payload of an attribute of the message |
| Ifaces.IsTemporary | src/ifaces.rs:140 | the test agrees with the source's `flags & IFA_F_TEMPORARY != 0` on every 32-bit word, and so holds exactly for the odd flags words |
| Ifaces.CollectLastAddress | src/ifaces.rs:127-134 | the collected address buffer is the payload of the last Address attribute, or none if there is none |
| Ifaces.CollectLastLocal | src/ifaces.rs:127-134 | the collected local buffer is the payload of the last Local attribute, or none |
| Ifaces.CollectLastFlags | src/ifaces.rs:127-134 | the collected flags are those of the last Flags attribute, or none |
| Ifaces.MessageLocalAddr | src/ifaces.rs:122-153 | temporary flags give none; otherwise a decodable local buffer wins over a decodable address buffer; a result is always the decoding of one of the message's attributes |
| Ifaces.TemporaryDropped | src/ifaces.rs:140-144 | a message whose last flags have the temporary bit reports nothing |
| Ifaces.LocalPreferred | src/ifaces.rs:145-149 | when the last Flags attribute lacks the temporary bit, a valid last Local attribute is the reported address |
| Ifaces.AddressFallback | src/ifaces.rs:150-151 | when the last Flags attribute lacks the temporary bit and there is no decodable last Local attribute, the last Address attribute is reported |
| Ifaces.LinkMessageName | src/ifaces.rs:169-174 | none iff the link carries no name attribute; otherwise the first name attribute's value |
| Ifaces.Handle | src/ifaces.rs:96-113 | a new link with a name records index to name; a deleted link drops its index; an address message reports (name, address) iff its index is known and it carries an address; nothing else is reported |
| Ifaces.NewLinkThenAddress | src/ifaces.rs:96-109 | after a link is announced, its addresses are reported under its name |
| Ifaces.DelLinkThenAddress | src/ifaces.rs:102-112 | after a link is deleted, its addresses are no longer reported |
| DnsName.Wire | src/dns/tsig2.rs:191 | a name's wire form is never empty and ends with the root's zero length octet |
| DnsName.CanonicalWire | src/dns/tsig2.rs:233-237 | the canonical wire form has the wire form's length and is the wire form lower-cased byte by byte |
| DnsName.NameEq | src/dns/tsig2.rs:89 | a name equals itself; equal names have the same number of labels and the same label lengths |
| DnsName.Canonical | src/dns/tsig2.rs:233-234 | the canonical form lower-cases every ASCII letter of every label and keeps the name's shape |
| DnsName.CanonicalIdempotent | src/dns/tsig2.rs:233-237 | canonicalising twice is canonicalising once |
| DnsName.ParseWire | src/dns/tsig2.rs:191 | a name's wire form parses back to the name, using exactly its own bytes, whatever follows |
| DnsName.CanonicalWireIffEq | src/dns/tsig2.rs:89 | two names have the same canonical wire form iff they are equal as DNS names |
| Tsig.AsName | src/dns/tsig2.rs:63-80 | each algorithm's name is already canonical (lower-case) |
| Tsig.FromName | src/dns/tsig2.rs:81-94 | a name is recognised iff it equals some algorithm's name, and then it equals the returned algorithm's name |
| Tsig.AsNameInjective | src/dns/tsig.rs:72-81 | distinct algorithms have names that differ as DNS names |
| Tsig.FromNameAsName | src/dns/tsig.rs:82-96 | looking up any spelling of an algorithm's name returns that algorithm |
| Tsig.EmitRdata | src/dns/tsig2.rs:189-201 | the RDATA is the canonical algorithm name followed by 16 bytes of fixed fields and the MAC, and it ends with a zero other-length |
| Tsig.ParseEmitRdata | src/dns/tsig2.rs:189-201 | parsing emitted TSIG RDATA gives back the canonical algorithm name, the time modulo 2^48, fudge, MAC, original id and error, with empty other data |
| Tsig.ParseEmitFixed | src/dns/tsig.rs:191-203 | the fields after the algorithm name parse back from their big-endian layout, whatever bytes follow |
| Tsig.MacInput | src/dns/tsig2.rs:214-242 | the MAC covers the whole message followed by the TSIG variables: canonical key name, class ANY, TTL 0, canonical algorithm name, 48-bit time, fudge 300, error 0, empty other data |
| Tsig.CreateTsig | src/dns/tsig2.rs:209-256 | the TSIG has fudge 300, no error, no other data, the message's id and the given time, names the key's algorithm by its canonical `as_name` name, and its MAC is the key's HMAC of the MAC input |
| Tsig.CreateSignature | src/dns/tsig2.rs:128-142 | the record is owned by the key name, with TTL 0, class ANY and type 250, and its RDATA parses to the created TSIG's fields, the algorithm name being exactly the algorithm's `as_name` |
| Tsig.SignThenVerify | src/dns/tsig.rs:211-259 | a receiver holding the same key and recomputing the MAC over the message and variables (section 4.5 of RFC 8945) accepts the signature |
| Tsig.OtherDataNeverEmitted | src/dns/tsig.rs:191-203 | the emitted RDATA ignores any other data and always ends with a zero other-length |
| Config.SelectSource | src/config.rs:32-54 | succeeds iff exactly one secret source is set, and then returns that field's value; none set and several set are distinct errors |
| Config.SelectionByPresence | src/config.rs:32-54 | the selection outcome depends only on which of the four sources are present, and matches a count-based rule |
| Config.SixteenPatterns | src/config.rs:32-54 | of the 16 presence patterns, each source is chosen by exactly one, one is rejected as missing, and 11 are rejected as conflicting |
| Config.ConflictPatterns | src/config.rs:49-53 | exactly 11 presence patterns are rejected as conflicting |
| Config.MissingPattern | src/config.rs:45-48 | exactly one presence pattern is rejected as missing |
| Config.PlainPattern | src/config.rs:33 | exactly one presence pattern selects the plain secret |
| Config.Base64Pattern | src/config.rs:34 | exactly one presence pattern selects the base64 secret |
| Config.FilePattern | src/config.rs:35-38 | exactly one presence pattern selects the secret file |
| Config.FileBase64Pattern | src/config.rs:39-44 | exactly one presence pattern selects the base64 secret file |
| Config.GetSecret | src/config.rs:31-55 | no source and several sources are errors; a plain secret is used as is; base64 is decoded; a file's bytes are used; a base64 file is read then decoded, an unreadable file giving the file error and bad base64 the decode error |

## Left out

- Socket and task plumbing is not modelled: `ifaces::start`, the netlink connection and multicast groups, the mpsc channel, the tokio timeout, `Rc<Mutex<…>>`, and logging. The model keeps the decisions, not the I/O.
- The startup dump in `ifaces::run` (links first, then addresses) is not modelled separately. Its messages are handled by the same steps as the live stream, which `Ifaces.Handle` models.
- The DNS client module (`src/dns.rs`) is not part of this model. Its query and update calls are the `DnsServer` parameter, which reports the answer set or whether the update succeeded.
- Building the interface table from the configuration (`run`, before the loop) is not modelled. The table is taken as given: a sequence of interfaces, each with its records. `src/main.rs` and `config::load` (TOML parsing) are also not modelled.
- The `HashMap` iteration order of the interface table is arbitrary in the source. The model uses the order of a sequence, which stays fixed because the table's keys never change after startup.
- The order in which neighbour updates are sent follows `HashMap` iteration. The model gives the neighbour targets and their outcomes as maps, because the outcomes are only logged and the server answers each name independently.
- HMAC is not modelled and is a parameter. Properties that depend on the hash, such as a changed message no longer verifying, cannot be stated about an arbitrary function.
- The message encoder is not modelled: the signed message is taken as its wire bytes and id. The encoder's error paths are not modelled either: `ProtoError`, and `InvalidLength`/`InvalidKeyLength`, which HMAC never raises since it accepts any key length.
- CIDR text parsing (`IpCidr::from_str(...).unwrap()`) is not modelled: scopes arrive already parsed, and therefore well-formed (no host bits set, prefix within the family's width). `RecordStates.New` requires this of a configured scope, and the panic on an unparsable scope string is outside the model.
- DNS names are limited to labels of 1-63 bytes. The 255-byte total limit and the fully-qualified flag are not modelled.
- `Instant` is not modelled: time is a count of whole seconds, and one idle tick reads the clock once.
- Ifaces.MessageLocalAddr: the Flags attribute is the `IFA_FLAGS` attribute as the netlink crate delivers it. The `ifa_flags` byte in the message header is not consulted, as in the source.
- Config.GetSecret: a plain secret is taken as its UTF-8 bytes. The model does not re-encode text.
- The code keeps no in-flight state for an update and handles no response code beyond the success or failure of the update call, so the model has neither.

=== FILE: bytes.dfy ===
/** Bytes and the big-endian integer encodings of DNS wire format
    (section 2.3.2 of RFC 1035: network byte order). */
module Bytes {

  type byte = x: int | 0 <= x < 0x100
  type u16 = x: int | 0 <= x < 0x1_0000
  type u32 = x: int | 0 <= x < 0x1_0000_0000
  type u64 = x: int | 0 <= x < 0x1_0000_0000_0000_0000

  const TWO_32: nat := 0x1_0000_0000
  const TWO_48: nat := 0x1_0000_0000_0000

  /** Reads a big-endian 16-bit value from the first two bytes of `b`. */
  function ReadU16(b: seq<byte>): u16
    requires |b| >= 2
  {
    (b[0] as int) * 0x100 + b[1] as int
  }

  /** Reads a big-endian 32-bit value from the first four bytes of `b`. */
  function ReadU32(b: seq<byte>): u32
    requires |b| >= 4
  {
    ReadU16(b) * 0x1_0000 + ReadU16(b[2..])
  }

  /** Reads a 48-bit value from six bytes: the high 16 bits, then the low 32 bits. */
  function ReadU48(b: seq<byte>): nat
    requires |b| >= 6
  {
    ReadU16(b) * TWO_32 + ReadU32(b[2..])
  }

  /** The two bytes of `n` in network order (`BinEncoder::emit_u16`). */
  function U16(n: u16): (r: seq<byte>)
    ensures |r| == 2
    ensures ReadU16(r) == n
  {
    [n / 0x100, n % 0x100]
  }

  /** Re-encoding a read 16-bit value gives back the two bytes it was read from. */
  lemma U16OfRead(b: seq<byte>)
    requires |b| >= 2
    ensures U16(ReadU16(b)) == b[..2]
  {
    var n := ReadU16(b);
    assert n == (b[0] as int) * 0x100 + b[1] as int;
    assert n / 0x100 == b[0];
    assert n % 0x100 == b[1];
  }

  /** The four bytes of `n` in network order (`BinEncoder::emit_u32`). */
  function U32(n: u32): (r: seq<byte>)
    ensures |r| == 4
    ensures ReadU32(r) == n
  {
    var hi := U16(n / 0x1_0000);
    var lo := U16(n % 0x1_0000);
    assert (hi + lo)[2..] == lo;
    hi + lo
  }

  /** `emit_u48`: `(n >> 32) as u16` followed by `n as u32`. Only the low
      48 bits of the 64-bit input survive; below 2^48 the value round-trips. */
  function EmitU48(n: u64): (r: seq<byte>)
    ensures |r| == 6
    ensures ReadU48(r) == n % TWO_48
    ensures n < TWO_48 ==> ReadU48(r) == n
  {
    var hi := U16((n / TWO_32) % 0x1_0000);
    var lo := U32(n % TWO_32);
    assert (hi + lo)[2..] == lo;
    SplitU48(n);
    hi + lo
  }

  /** The arithmetic behind `EmitU48`: truncating the high part to 16 bits
      and recombining yields the value modulo 2^48. */
  lemma SplitU48(n: nat)
    ensures ((n / TWO_32) % 0x1_0000) * TWO_32 + n % TWO_32 == n % TWO_48
  {
    var q := n / TWO_32;
    var r := n % TWO_32;
    assert n == q * TWO_32 + r;
    var q1 := q / 0x1_0000;
    var q0 := q % 0x1_0000;
    assert q == q1 * 0x1_0000 + q0;
    assert n == q1 * TWO_48 + (q0 * TWO_32 + r);
    assert 0 <= q0 * TWO_32 + r < TWO_48;
  }

  /** Encoding after truncation to 48 bits gives the same six bytes. */
  lemma EmitU48Truncates(n: u64)
    ensures EmitU48(n % TWO_48) == EmitU48(n)
  {
    var m := n % TWO_48;
    assert ReadU48(EmitU48(m)) == m;
    ReadU48Injective(EmitU48(m), EmitU48(n));
  }

  /** Two six-byte strings that read as the same 48-bit value are equal. */
  lemma ReadU48Injective(a: seq<byte>, b: seq<byte>)
    requires |a| == 6 && |b| == 6
    requires ReadU48(a) == ReadU48(b)
    ensures a == b
  {
    assert a[0] == b[0] && a[1] == b[1] && a[2] == b[2]
        && a[3] == b[3] && a[4] == b[4] && a[5] == b[5];
  }
}

=== FILE: config.dfy ===
/** Secret-source selection of `TsigKey::get_secret` (src/config.rs):
    exactly one of `secret`, `secret-base64`, `secret-file` and
    `secret-file-base64` must be set. Reading files and decoding base64
    are parameters. */
module Config {
  import opened Wrappers
  import opened Bytes

  /** The secret settings of a `[keys.*]` entry; string values as their UTF-8 bytes. */
  datatype TsigKeyConfig = TsigKeyConfig(
    name: string,
    secret: Option<seq<byte>>,
    secretBase64: Option<seq<byte>>,
    secretFile: Option<string>,
    secretFileBase64: Option<string>)

  /** The one configured source. */
  datatype SecretSource =
    | Plain(text: seq<byte>)
    | Base64(encoded: seq<byte>)
    | File(path: string)
    | FileBase64(base64Path: string)

  /** The panics of `get_secret`, as values. */
  datatype SecretError =
    | NoSecretConfigured(key: string)
    | SeveralSecretsConfigured(key: string)
    | InvalidBase64
    | UnreadableFile(file: string)

  /** File reading and base64 decoding; None is a failure. */
  datatype SecretIo = SecretIo(
    readFile: string -> Option<seq<byte>>,
    decodeBase64: seq<byte> -> Option<seq<byte>>)

  /** Which of the four settings are present, in declaration order. */
  datatype Presence = Presence(secret: bool, secretBase64: bool, secretFile: bool, secretFileBase64: bool)

  function PresenceOf(k: TsigKeyConfig): Presence {
    Presence(k.secret.Some?, k.secretBase64.Some?, k.secretFile.Some?, k.secretFileBase64.Some?)
  }

  /** How many settings are present. */
  function CountPresent(p: Presence): (r: nat)
    ensures r <= 4
  {
    (if p.secret then 1 else 0) + (if p.secretBase64 then 1 else 0)
      + (if p.secretFile then 1 else 0) + (if p.secretFileBase64 then 1 else 0)
  }

  /** The match at the head of `get_secret`: the single present source,
      the "neither ... configured" error when none is, and the "more than
      one" error otherwise. */
  function SelectSource(k: TsigKeyConfig): (r: Result<SecretSource, SecretError>)
    ensures r.Success? <==> CountPresent(PresenceOf(k)) == 1
    ensures r == Failure(NoSecretConfigured(k.name)) <==> CountPresent(PresenceOf(k)) == 0
    ensures r == Failure(SeveralSecretsConfigured(k.name)) <==> CountPresent(PresenceOf(k)) >= 2
    ensures r.Success? && r.value.Plain? ==> k.secret == Some(r.value.text)
    ensures r.Success? && r.value.Base64? ==> k.secretBase64 == Some(r.value.encoded)
    ensures r.Success? && r.value.File? ==> k.secretFile == Some(r.value.path)
    ensures r.Success? && r.value.FileBase64? ==> k.secretFileBase64 == Some(r.value.base64Path)
  {
    match (k.secret, k.secretBase64, k.secretFile, k.secretFileBase64)
    case (Some(s), None, None, None) => Success(Plain(s))
    case (None, Some(s), None, None) => Success(Base64(s))
    case (None, None, Some(f), None) => Success(File(f))
    case (None, None, None, Some(f)) => Success(FileBase64(f))
    case (None, None, None, None) => Failure(NoSecretConfigured(k.name))
    case _ => Failure(SeveralSecretsConfigured(k.name))
  }

  /** The outcome of the selection, without the payload. */
  datatype Outcome = Selected(kind: SourceKind) | Missing | Conflict

  /** The four settings, in declaration order. */
  datatype SourceKind = SecretKind | SecretBase64Kind | SecretFileKind | SecretFileBase64Kind

  function OutcomeOf(r: Result<SecretSource, SecretError>): Outcome {
    match r
    case Success(Plain(_)) => Selected(SecretKind)
    case Success(Base64(_)) => Selected(SecretBase64Kind)
    case Success(File(_)) => Selected(SecretFileKind)
    case Success(FileBase64(_)) => Selected(SecretFileBase64Kind)
    case Failure(NoSecretConfigured(_)) => Missing
    case Failure(_) => Conflict
  }

  /** The outcome a presence pattern calls for: the index of the only
      present setting, Missing for none, Conflict for several. */
  function ExpectedOutcome(p: Presence): Outcome {
    var c := CountPresent(p);
    if c == 0 then Missing
    else if c >= 2 then Conflict
    else if p.secret then Selected(SecretKind)
    else if p.secretBase64 then Selected(SecretBase64Kind)
    else if p.secretFile then Selected(SecretFileKind)
    else Selected(SecretFileBase64Kind)
  }

  /** The selection depends only on which settings are present, never on their contents. */
  lemma SelectionByPresence(k: TsigKeyConfig)
    ensures OutcomeOf(SelectSource(k)) == ExpectedOutcome(PresenceOf(k))
  {
  }

  /** 1 when pattern `p` leads to outcome `o`, else 0. */
  function Indicator(p: Presence, o: Outcome): nat {
    if ExpectedOutcome(p) == o then 1 else 0
  }

  /** How many of the sixteen patterns lead to `o`, counted by fixing the
      settings one at a time. */
  function CountOutcome(o: Outcome): nat {
    CountFixing1(false, o) + CountFixing1(true, o)
  }

  function CountFixing1(a: bool, o: Outcome): nat {
    CountFixing2(a, false, o) + CountFixing2(a, true, o)
  }

  function CountFixing2(a: bool, b: bool, o: Outcome): nat {
    CountFixing3(a, b, false, o) + CountFixing3(a, b, true, o)
  }

  function CountFixing3(a: bool, b: bool, c: bool, o: Outcome): nat {
    Indicator(Presence(a, b, c, false), o) + Indicator(Presence(a, b, c, true), o)
  }

  /** Eleven of the sixteen patterns set more than one source. */
  lemma ConflictPatterns()
    ensures CountOutcome(Conflict) == 11
  {
    assert CountFixing2(false, false, Conflict) == 1;
    assert CountFixing2(false, true, Conflict) == 3;
    assert CountFixing2(true, false, Conflict) == 3;
    assert CountFixing2(true, true, Conflict) == 4;
  }

  /** Exactly one pattern sets no source. */
  lemma MissingPattern()
    ensures CountOutcome(Missing) == 1
  {
    assert CountFixing2(false, false, Missing) == 1;
    assert CountFixing2(false, true, Missing) == 0;
    assert CountFixing2(true, false, Missing) == 0;
    assert CountFixing2(true, true, Missing) == 0;
  }

  /** Exactly one pattern selects each of the four sources. */
  lemma PlainPattern()
    ensures CountOutcome(Selected(SecretKind)) == 1
  {
    assert CountFixing1(false, Selected(SecretKind)) == 0;
    assert CountFixing2(true, false, Selected(SecretKind)) == 1;
    assert CountFixing2(true, true, Selected(SecretKind)) == 0;
  }

  lemma Base64Pattern()
    ensures CountOutcome(Selected(SecretBase64Kind)) == 1
  {
    assert CountFixing1(true, Selected(SecretBase64Kind)) == 0;
    assert CountFixing2(false, false, Selected(SecretBase64Kind)) == 0;
    assert CountFixing2(false, true, Selected(SecretBase64Kind)) == 1;
  }

  lemma FilePattern()
    ensures CountOutcome(Selected(SecretFileKind)) == 1
  {
    assert CountFixing1(true, Selected(SecretFileKind)) == 0;
    assert CountFixing2(false, true, Selected(SecretFileKind)) == 0;
    assert CountFixing2(false, false, Selected(SecretFileKind)) == 1;
  }

  lemma FileBase64Pattern()
    ensures CountOutcome(Selected(SecretFileBase64Kind)) == 1
  {
    assert CountFixing1(true, Selected(SecretFileBase64Kind)) == 0;
    assert CountFixing2(false, true, Selected(SecretFileBase64Kind)) == 0;
    assert CountFixing2(false, false, Selected(SecretFileBase64Kind)) == 1;
  }

  /** The selection is total over the sixteen patterns: one each for the
      four single sources, one "none configured", eleven "more than one";
      these six outcomes are all there are, and 1 + 1 + 1 + 1 + 1 + 11 = 16. */
  lemma SixteenPatterns()
    ensures CountOutcome(Selected(SecretKind)) == 1 && CountOutcome(Selected(SecretBase64Kind)) == 1
    ensures CountOutcome(Selected(SecretFileKind)) == 1 && CountOutcome(Selected(SecretFileBase64Kind)) == 1
    ensures CountOutcome(Missing) == 1
    ensures CountOutcome(Conflict) == 11
  {
    PlainPattern();
    Base64Pattern();
    FilePattern();
    FileBase64Pattern();
    MissingPattern();
    ConflictPatterns();
  }

  /** `get_secret`: the selected source's bytes; plain text unchanged,
      base64 decoded, a file read, or a file read and decoded. */
  function GetSecret(k: TsigKeyConfig, io: SecretIo): (r: Result<seq<byte>, SecretError>)
    ensures CountPresent(PresenceOf(k)) == 0 ==> r == Failure(NoSecretConfigured(k.name))
    ensures CountPresent(PresenceOf(k)) >= 2 ==> r == Failure(SeveralSecretsConfigured(k.name))
    ensures PresenceOf(k) == Presence(true, false, false, false) ==> r == Success(k.secret.value)
    ensures PresenceOf(k) == Presence(false, true, false, false) ==>
      r == (match io.decodeBase64(k.secretBase64.value)
            case Some(b) => Success(b)
            case None => Failure(InvalidBase64))
    ensures PresenceOf(k) == Presence(false, false, true, false) ==>
      r == (match io.readFile(k.secretFile.value)
            case Some(b) => Success(b)
            case None => Failure(UnreadableFile(k.secretFile.value)))
    ensures PresenceOf(k) == Presence(false, false, false, true) ==>
      r == (match io.readFile(k.secretFileBase64.value)
            case None => Failure(UnreadableFile(k.secretFileBase64.value))
            case Some(text) =>
              match io.decodeBase64(text)
              case Some(b) => Success(b)
              case None => Failure(InvalidBase64))
  {
    match SelectSource(k)
    case Failure(e) => Failure(e)
    case Success(Plain(s)) => Success(s)
    case Success(Base64(s)) =>
      (match io.decodeBase64(s)
       case Some(b) => Success(b)
       case None => Failure(InvalidBase64))
    case Success(File(f)) =>
      (match io.readFile(f)
       case Some(b) => Success(b)
       case None => Failure(UnreadableFile(f)))
    case Success(FileBase64(f)) =>
      (match io.readFile(f)
       case None => Failure(UnreadableFile(f))
       case Some(text) =>
         match io.decodeBase64(text)
         case Some(b) => Success(b)
         case None => Failure(InvalidBase64))
  }
}

=== FILE: dns_name.dfy ===
/** Domain names as label sequences, their uncompressed wire form
    (section 3.1 of RFC 1035) and canonical form (section 6.2 of RFC 4034:
    ASCII upper case mapped to lower case, no compression), as
    `rr::Name::emit` writes them into an encoder set to canonical names. */
module DnsName {
  import opened Wrappers
  import opened Bytes

  /** A label: one to sixty-three octets. */
  type Label = s: seq<byte> | 1 <= |s| <= 63 witness [0x61]

  /** A domain name; the root is the empty label sequence. */
  datatype Name = Name(labels: seq<Label>)

  /** A decoded value and the number of bytes it took. */
  datatype Parsed<T> = Parsed(value: T, used: nat)

  /** ASCII `A`-`Z` to `a`-`z`; every other octet unchanged. */
  function LowerByte(b: byte): (r: byte)
    ensures 0x41 <= b <= 0x5A ==> r == b + 0x20
    ensures !(0x41 <= b <= 0x5A) ==> r == b
    ensures !(0x41 <= r <= 0x5A)
  {
    if 0x41 <= b <= 0x5A then b + 0x20 else b
  }

  function LowerLabel(l: Label): (r: Label)
    ensures |r| == |l|
    ensures forall i :: 0 <= i < |l| ==> r[i] == LowerByte(l[i])
  {
    seq(|l|, i requires 0 <= i < |l| => LowerByte(l[i]))
  }

  /** The canonical (lower-case) form of a name. */
  function Canonical(n: Name): (r: Name)
    ensures |r.labels| == |n.labels|
    ensures forall i :: 0 <= i < |n.labels| ==> r.labels[i] == LowerLabel(n.labels[i])
  {
    Name(seq(|n.labels|, i requires 0 <= i < |n.labels| => LowerLabel(n.labels[i])))
  }

  /** Lower-casing twice is lower-casing once. */
  lemma CanonicalIdempotent(n: Name)
    ensures Canonical(Canonical(n)) == Canonical(n)
  {
    var c := Canonical(n);
    forall i | 0 <= i < |n.labels| ensures LowerLabel(c.labels[i]) == c.labels[i] {
      assert forall k :: 0 <= k < |c.labels[i]| ==> LowerByte(c.labels[i][k]) == c.labels[i][k];
    }
  }

  /** Name equality as `rr::Name` compares: label by label, ignoring ASCII case. */
  predicate NameEq(a: Name, b: Name): (r: bool)
    ensures a == b ==> r
    ensures r ==> |a.labels| == |b.labels|
    ensures r ==> forall i :: 0 <= i < |a.labels| ==> |a.labels[i]| == |b.labels[i]|
  {
    Canonical(a) == Canonical(b)
  }

  /** The uncompressed wire form: each label behind its length octet, then the root's zero octet. */
  function Wire(n: Name): (r: seq<byte>)
    ensures |r| >= 1 && r[|r| - 1] == 0
    decreases |n.labels|
  {
    if |n.labels| == 0 then [0]
    else [|n.labels[0]|] + n.labels[0] + Wire(Name(n.labels[1..]))
  }

  /** The canonical wire form, as written for TSIG (section 3.4.2 of RFC 2845). */
  function CanonicalWire(n: Name): (r: seq<byte>)
    ensures |r| == |Wire(n)|
    ensures forall i :: 0 <= i < |r| ==> r[i] == LowerByte(Wire(n)[i])
  {
    WireLower(n);
    Wire(Canonical(n))
  }

  /** Writing the canonical form is lower-casing the written form byte by
      byte: length octets are at most 63 and are never letters. */
  lemma {:induction false} WireLower(n: Name)
    ensures |Wire(Canonical(n))| == |Wire(n)|
    ensures forall i :: 0 <= i < |Wire(n)| ==> Wire(Canonical(n))[i] == LowerByte(Wire(n)[i])
    decreases |n.labels|
  {
    if |n.labels| > 0 {
      var l := n.labels[0];
      var tail := Name(n.labels[1..]);
      var c := Canonical(n);
      assert c.labels[1..] == Canonical(tail).labels;
      WireLower(tail);
      var w := Wire(n);
      var cw := Wire(c);
      assert w == [|l|] + l + Wire(tail);
      assert cw == [|LowerLabel(l)|] + LowerLabel(l) + Wire(Canonical(tail));
      forall i | 0 <= i < |w| ensures cw[i] == LowerByte(w[i]) {
        if i == 0 {
        } else if i <= |l| {
          assert w[i] == l[i - 1];
        } else {
          assert w[i] == Wire(tail)[i - 1 - |l|];
        }
      }
    }
  }

  /** Reads an uncompressed name from the front of `b`. Length octets of
      64 and above (compression pointers, extended labels) are refused. */
  function ParseName(b: seq<byte>): (r: Option<Parsed<Name>>)
    ensures r.Some? ==> 1 <= r.value.used <= |b|
    decreases |b|
  {
    if |b| == 0 then None
    else if b[0] == 0 then Some(Parsed(Name([]), 1))
    else if b[0] > 63 || |b| < 1 + b[0] then None
    else
      var first: Label := b[1..1 + b[0]];
      match ParseName(b[1 + b[0]..])
      case None => None
      case Some(tail) => Some(Parsed(Name([first] + tail.value.labels), 1 + b[0] + tail.used))
  }

  /** Reading back a written name gives the name and its exact length,
      whatever follows it. */
  lemma {:induction false} ParseWire(n: Name, rest: seq<byte>)
    ensures ParseName(Wire(n) + rest) == Some(Parsed(n, |Wire(n)|))
    decreases |n.labels|
  {
    var b := Wire(n) + rest;
    if |n.labels| > 0 {
      var l := n.labels[0];
      var tail := Name(n.labels[1..]);
      assert b == [|l|] + l + (Wire(tail) + rest);
      assert b[0] == |l|;
      assert b[1..1 + |l|] == l;
      assert b[1 + |l|..] == Wire(tail) + rest;
      ParseWire(tail, rest);
      assert [l] + tail.labels == n.labels;
    }
  }

  /** Two names have the same canonical wire form exactly when they are equal ignoring case. */
  lemma CanonicalWireIffEq(a: Name, b: Name)
    ensures CanonicalWire(a) == CanonicalWire(b) <==> NameEq(a, b)
  {
    if CanonicalWire(a) == CanonicalWire(b) {
      ParseWire(Canonical(a), []);
      ParseWire(Canonical(b), []);
      assert Wire(Canonical(a)) + [] == Wire(Canonical(b)) + [];
    }
  }
}

=== FILE: event_loop.dfy ===
/** The main loop of `run` (src/lib.rs): address notifications are offered
    to every record of the interface, and each idle timeout pushes at most
    one record, the first in iteration order that may be updated. The
    per-interface table is a sequence of groups; its order stands for the
    iteration order of the map, which is fixed once the table is built. */
module EventLoop {
  import opened Wrappers
  import opened IpAddr
  import opened RecordStates

  /** Wait after a change before pushing it (`IDLE_TIMEOUT`, seconds). */
  const IDLE_TIMEOUT: nat := 1
  /** Wait when nothing is pending (`NEVER_TIMEOUT`, one year in seconds). */
  const NEVER_TIMEOUT: nat := 365 * 86400

  /** The records of one interface. */
  datatype Group = Group(iface: string, states: seq<RecordState>)

  /** The loop's state: the record table and the current receive timeout. */
  datatype Loop = Loop(groups: seq<Group>, interval: nat)

  /** Where a record sits in the table. */
  datatype Position = Position(group: nat, index: nat)

  /** What the loop waits for: an address from the watcher, the watcher
      channel closing, or the receive timeout elapsing at time `now`. */
  datatype Event = AddressNotice(iface: string, addr: IpAddr) | Disconnect | Idle(now: nat)

  predicate DistinctIfaces(groups: seq<Group>) {
    forall g, h :: 0 <= g < h < |groups| ==> groups[g].iface != groups[h].iface
  }

  predicate AllValid(groups: seq<Group>) {
    forall g, j :: 0 <= g < |groups| && 0 <= j < |groups[g].states| ==> Valid(groups[g].states[j])
  }

  /** The table invariant: one group per interface, every record valid. */
  predicate WellFormed(lp: Loop) {
    DistinctIfaces(lp.groups) && AllValid(lp.groups)
  }

  /** The table has the same shape as another: same interfaces, same group sizes. */
  predicate SameShape(a: seq<Group>, b: seq<Group>) {
    && |a| == |b|
    && forall g :: 0 <= g < |a| ==> a[g].iface == b[g].iface && |a[g].states| == |b[g].states|
  }

  // ---------------------------------------------------------------------
  // Address notifications (lib.rs:248-258)

  /** Whether offering `a` changes some record of the list. */
  predicate AnyChanged(states: seq<RecordState>, a: IpAddr) {
    exists j :: 0 <= j < |states| && SetAddress(states[j], a).changed
  }

  /** `set_address` applied to every record of a list. */
  function SetAll(states: seq<RecordState>, a: IpAddr): (r: seq<RecordState>)
    ensures |r| == |states|
    ensures forall j :: 0 <= j < |states| ==> r[j] == SetAddress(states[j], a).state
  {
    seq(|states|, j requires 0 <= j < |states| => SetAddress(states[j], a).state)
  }

  /** One group's share of a notification: the named interface's records
      see the address, any other group is left alone. */
  function Offer(grp: Group, iface: string, a: IpAddr): (r: Group)
    ensures r.iface == grp.iface && |r.states| == |grp.states|
    ensures grp.iface == iface ==> r.states == SetAll(grp.states, a)
    ensures grp.iface != iface ==> r == grp
    ensures (forall j :: 0 <= j < |grp.states| ==> Valid(grp.states[j])) ==>
      forall j :: 0 <= j < |r.states| ==> Valid(r.states[j])
  {
    if grp.iface == iface then grp.(states := SetAll(grp.states, a)) else grp
  }

  /** Every group's share of a notification, in table order. */
  function OfferAll(groups: seq<Group>, iface: string, a: IpAddr): (r: seq<Group>)
    ensures |r| == |groups|
    ensures forall g :: 0 <= g < |groups| ==> r[g] == Offer(groups[g], iface, a)
    ensures AllValid(groups) ==> AllValid(r)
  {
    var r := seq(|groups|, g requires 0 <= g < |groups| => Offer(groups[g], iface, a));
    assert AllValid(groups) ==> AllValid(r) by {
      if AllValid(groups) {
        forall g | 0 <= g < |r| ensures forall j :: 0 <= j < |r[g].states| ==> Valid(r[g].states[j]) {
          assert forall j :: 0 <= j < |groups[g].states| ==> Valid(groups[g].states[j]);
        }
      }
    }
    r
  }

  /** When no record of the interface takes the address, the table is unchanged. */
  lemma OfferAllUnchanged(groups: seq<Group>, iface: string, a: IpAddr)
    requires forall g :: 0 <= g < |groups| && groups[g].iface == iface ==> !AnyChanged(groups[g].states, a)
    ensures OfferAll(groups, iface, a) == groups
  {
    var r := OfferAll(groups, iface, a);
    forall g | 0 <= g < |groups| ensures r[g] == groups[g] {
      if groups[g].iface == iface {
        assert SetAll(groups[g].states, a) == groups[g].states;
      }
    }
  }

  /** A notification for `iface`: all its records see the address; the
      timeout drops to `IDLE_TIMEOUT` when any record took it. Other
      interfaces, and unknown interfaces, are untouched. */
  function Notify(lp: Loop, iface: string, a: IpAddr): (r: Loop)
    requires WellFormed(lp)
    ensures WellFormed(r)
    ensures SameShape(r.groups, lp.groups)
    ensures forall g :: 0 <= g < |lp.groups| && lp.groups[g].iface != iface ==> r.groups[g] == lp.groups[g]
    ensures forall g :: 0 <= g < |lp.groups| && lp.groups[g].iface == iface ==>
      forall j :: 0 <= j < |lp.groups[g].states| ==>
        r.groups[g].states[j] == SetAddress(lp.groups[g].states[j], a).state
    ensures (exists g :: 0 <= g < |lp.groups| && lp.groups[g].iface == iface && AnyChanged(lp.groups[g].states, a))
      ==> r.interval == IDLE_TIMEOUT
    ensures (forall g :: 0 <= g < |lp.groups| && lp.groups[g].iface == iface ==> !AnyChanged(lp.groups[g].states, a))
      ==> r == lp
  {
    var groups := OfferAll(lp.groups, iface, a);
    var changed := exists g :: 0 <= g < |lp.groups| && lp.groups[g].iface == iface && AnyChanged(lp.groups[g].states, a);
    if !changed then
      OfferAllUnchanged(lp.groups, iface, a);
      lp
    else
      Loop(groups, IDLE_TIMEOUT)
  }

  /** A repeated notification is a no-op: no record changes and the timeout stays. */
  lemma NotifyIdempotent(lp: Loop, iface: string, a: IpAddr)
    requires WellFormed(lp)
    ensures var once := Notify(lp, iface, a); Notify(once, iface, a) == once
  {
    var once := Notify(lp, iface, a);
    forall g | 0 <= g < |once.groups| && once.groups[g].iface == iface
      ensures !AnyChanged(once.groups[g].states, a)
    {
      forall j | 0 <= j < |once.groups[g].states|
        ensures !SetAddress(once.groups[g].states[j], a).changed
      {
        if lp.groups[g].iface == iface {
          SetAddressIdempotent(lp.groups[g].states[j], a);
        }
      }
    }
  }

  // ---------------------------------------------------------------------
  // The idle tick (lib.rs:263-292)

  /** The first record at or after index `k` that may be updated. */
  function FirstUpdatable(states: seq<RecordState>, k: nat, now: nat): (r: Option<nat>)
    requires k <= |states|
    ensures r.Some? ==> k <= r.value < |states| && CanUpdate(states[r.value], now)
    ensures r.Some? ==> forall j :: k <= j < r.value ==> !CanUpdate(states[j], now)
    ensures r.None? ==> forall j :: k <= j < |states| ==> !CanUpdate(states[j], now)
    decreases |states| - k
  {
    if k == |states| then None
    else if CanUpdate(states[k], now) then Some(k)
    else FirstUpdatable(states, k + 1, now)
  }

  /** Whether record (g, j) comes before record (h, i) in iteration order. */
  predicate Before(g: nat, j: nat, h: nat, i: nat) {
    g < h || (g == h && j < i)
  }

  /** The record the labelled loop `'send_update` stops at, searching the
      groups from index `g` on. */
  function FirstInTable(groups: seq<Group>, g: nat, now: nat): (r: Option<Position>)
    requires g <= |groups|
    ensures r.Some? ==>
      && g <= r.value.group < |groups|
      && r.value.index < |groups[r.value.group].states|
      && CanUpdate(groups[r.value.group].states[r.value.index], now)
    ensures r.Some? ==>
      forall h, j :: g <= h < |groups| && 0 <= j < |groups[h].states| && Before(h, j, r.value.group, r.value.index)
        ==> !CanUpdate(groups[h].states[j], now)
    ensures r.None? ==>
      forall h, j :: g <= h < |groups| && 0 <= j < |groups[h].states| ==> !CanUpdate(groups[h].states[j], now)
    decreases |groups| - g
  {
    if g == |groups| then None
    else
      match FirstUpdatable(groups[g].states, 0, now)
      case Some(j) => Some(Position(g, j))
      case None => FirstInTable(groups, g + 1, now)
  }

  /** `now - state_timeout` on `Instant`: saturates at zero. */
  function SaturatingSub(a: nat, b: nat): (r: nat)
    ensures r <= a
    ensures a >= b ==> r + b == a
    ensures a <= b ==> r == 0
  {
    if a >= b then a - b else 0
  }

  /** The timeout recomputation over one list of records, as written: a
      passed deadline gives 0, and a future one gives the reversed,
      saturating difference `now - deadline`, which is 0 as well. */
  function IntervalOver(states: seq<RecordState>, now: nat, interval: nat): (r: nat)
    ensures (exists j :: 0 <= j < |states| && states[j].dirty) ==> r == 0
    ensures (forall j :: 0 <= j < |states| ==> !states[j].dirty) ==> r == interval
  {
    if |states| == 0 then interval
    else
      var next :=
        match NextTimeout(states[0], now)
        case None => interval
        case Some(deadline) =>
          if deadline <= now then 0
          else
            var wait := SaturatingSub(now, deadline);
            if wait < interval then wait else interval;
      var r := IntervalOver(states[1..], now, next);
      assert forall j :: 1 <= j < |states| ==> states[j] == states[1..][j - 1];
      r
  }

  /** The timeout recomputation over the whole table. */
  function IntervalOverTable(groups: seq<Group>, now: nat, interval: nat): (r: nat)
    ensures (exists g, j :: 0 <= g < |groups| && 0 <= j < |groups[g].states| && groups[g].states[j].dirty) ==> r == 0
    ensures (forall g, j :: 0 <= g < |groups| && 0 <= j < |groups[g].states| ==> !groups[g].states[j].dirty) ==> r == interval
  {
    if |groups| == 0 then interval
    else
      var r := IntervalOverTable(groups[1..], now, IntervalOver(groups[0].states, now, interval));
      assert forall g :: 1 <= g < |groups| ==> groups[g] == groups[1..][g - 1];
      r
  }

  /** The table with one record replaced by the result of its push. */
  function PushAt(groups: seq<Group>, p: Position, now: nat, server: DnsServer): (r: seq<Group>)
    requires p.group < |groups| && p.index < |groups[p.group].states|
    requires groups[p.group].states[p.index].addr.Some?
    ensures SameShape(r, groups)
    ensures r[p.group].states[p.index] == Update(groups[p.group].states[p.index], now, server).state
    ensures forall g, j :: 0 <= g < |groups| && 0 <= j < |groups[g].states| && (g, j) != (p.group, p.index) ==>
        r[g].states[j] == groups[g].states[j]
    ensures AllValid(groups) ==> AllValid(r)
  {
    var grp := groups[p.group];
    var pushed := Update(grp.states[p.index], now, server).state;
    groups[p.group := grp.(states := grp.states[p.index := pushed])]
  }

  /** The idle timeout: the first updatable record in iteration order is
      pushed and no other record changes; then the receive timeout is
      recomputed from `NEVER_TIMEOUT`. */
  function Tick(lp: Loop, now: nat, server: DnsServer): (r: Loop)
    requires WellFormed(lp)
    ensures WellFormed(r)
    ensures SameShape(r.groups, lp.groups)
    ensures FirstInTable(lp.groups, 0, now).None? ==> r.groups == lp.groups
    ensures FirstInTable(lp.groups, 0, now).Some? ==>
      var p := FirstInTable(lp.groups, 0, now).value;
      && r.groups[p.group].states[p.index] == Update(lp.groups[p.group].states[p.index], now, server).state
      && forall g, j :: 0 <= g < |lp.groups| && 0 <= j < |lp.groups[g].states| && (g, j) != (p.group, p.index)
           ==> r.groups[g].states[j] == lp.groups[g].states[j]
    ensures r.interval == 0 || r.interval == NEVER_TIMEOUT
    ensures r.interval == 0 <==>
      exists g, j :: 0 <= g < |r.groups| && 0 <= j < |r.groups[g].states| && r.groups[g].states[j].dirty
  {
    var groups :=
      (match FirstInTable(lp.groups, 0, now)
       case None => lp.groups
       case Some(p) =>
         UpdatableHasAddress(lp.groups[p.group].states[p.index], now);
         PushAt(lp.groups, p, now, server));
    Loop(groups, IntervalOverTable(groups, now, NEVER_TIMEOUT))
  }

  /** The result of one event: the loop goes on, or `run` returns its error. */
  datatype StepResult = Continue(next: Loop) | Finished

  /** One turn of the loop. */
  function Step(lp: Loop, ev: Event, server: DnsServer): (r: StepResult)
    requires WellFormed(lp)
    ensures ev.Disconnect? <==> r.Finished?
    ensures r.Continue? ==> WellFormed(r.next) && SameShape(r.next.groups, lp.groups)
    ensures ev.AddressNotice? ==> r == Continue(Notify(lp, ev.iface, ev.addr))
    ensures ev.Idle? ==> r == Continue(Tick(lp, ev.now, server))
  {
    match ev
    case AddressNotice(iface, a) => Continue(Notify(lp, iface, a))
    case Disconnect => Finished
    case Idle(now) => Continue(Tick(lp, now, server))
  }

  /** At most one DNS push per idle timeout: any two records that changed
      in a tick are the same record. */
  lemma AtMostOneUpdatePerTick(lp: Loop, now: nat, server: DnsServer, g1: nat, j1: nat, g2: nat, j2: nat)
    requires WellFormed(lp)
    requires g1 < |lp.groups| && j1 < |lp.groups[g1].states|
    requires g2 < |lp.groups| && j2 < |lp.groups[g2].states|
    requires Tick(lp, now, server).groups[g1].states[j1] != lp.groups[g1].states[j1]
    requires Tick(lp, now, server).groups[g2].states[j2] != lp.groups[g2].states[j2]
    ensures g1 == g2 && j1 == j2
  {
  }

  /** When some record may be updated, a tick pushes one: the updatable
      record earliest in iteration order. */
  lemma TickPushesFirstUpdatable(lp: Loop, now: nat, server: DnsServer, g: nat, j: nat)
    requires WellFormed(lp)
    requires g < |lp.groups| && j < |lp.groups[g].states|
    requires CanUpdate(lp.groups[g].states[j], now)
    ensures FirstInTable(lp.groups, 0, now).Some?
    ensures var p := FirstInTable(lp.groups, 0, now).value;
      !Before(g, j, p.group, p.index)
  {
  }

  /** As written, the recomputed timeout ignores the retry deadline: a
      record that failed ten seconds ago, due again in fifty, makes the
      loop wait zero seconds. */
  lemma PendingRetryGivesZeroWait(s: RecordState, now: nat)
    requires s.dirty && now >= 10 && s.updateTried == Some(now - 10)
    ensures NextTimeout(s, now) == Some(now + 50)
    ensures IntervalOverTable([Group("eth0", [s])], now, NEVER_TIMEOUT) == 0
  {
    assert [Group("eth0", [s])][0].states[0].dirty;
  }
}

=== FILE: ifaces.dfy ===
/** The per-message steps of the netlink address watcher (src/ifaces.rs):
    decoding address attributes, reading a link's name, and the
    interface index to name table that turns address messages into
    (interface name, address) notices. */
module Ifaces {
  import opened Wrappers
  import opened Bytes
  import opened IpAddr

  /** `IFA_F_TEMPORARY` of the Linux address flags: bit 0. */
  const IFA_F_TEMPORARY: u32 := 0x01

  /** The attributes of an address message the watcher looks at. */
  datatype AddrNla = Address(addrBytes: seq<byte>) | Local(localBytes: seq<byte>) | Flags(flags: u32) | OtherAddrNla

  /** The attributes of a link message the watcher looks at. */
  datatype LinkNla = IfName(name: string) | OtherLinkNla

  /** The routing messages the watcher handles; everything else is `OtherMessage`. */
  datatype RtnlMessage =
    | NewLink(linkIndex: u32, linkNlas: seq<LinkNla>)
    | DelLink(delIndex: u32)
    | NewAddress(addrIndex: u32, addrNlas: seq<AddrNla>)
    | OtherMessage

  /** `buf_to_addr`: four bytes are an IPv4 address, sixteen an IPv6
      address, in the order given; any other length is not an address. */
  function BufToAddr(buf: seq<byte>): (r: Option<IpAddr>)
    ensures r.Some? <==> |buf| == 4 || |buf| == 16
    ensures r.Some? ==> r.value.Octets() == buf
  {
    if |buf| == 4 then Some(V4(buf))
    else if |buf| == 16 then Some(V6(buf))
    else None
  }

  /** The three variables of the attribute loop of `message_local_addr`. */
  datatype Collected = Collected(addrBuf: Option<seq<byte>>, localBuf: Option<seq<byte>>, flags: Option<u32>)

  /** The attribute loop of `message_local_addr`, as the state after the
      attributes seen so far: each attribute overwrites its kind's variable. */
  function Collect(nlas: seq<AddrNla>): (r: Collected)
    ensures r.addrBuf.Some? ==> Address(r.addrBuf.value) in nlas
    ensures r.localBuf.Some? ==> Local(r.localBuf.value) in nlas
    ensures r.flags.Some? ==> Flags(r.flags.value) in nlas
  {
    if |nlas| == 0 then Collected(None, None, None)
    else
      var c := Collect(nlas[..|nlas| - 1]);
      match nlas[|nlas| - 1]
      case Address(a) => c.(addrBuf := Some(a))
      case Local(a) => c.(localBuf := Some(a))
      case Flags(f) => c.(flags := Some(f))
      case OtherAddrNla => c
  }

  /** The loop keeps the last address attribute, and none if there is none. */
  lemma {:induction false} CollectLastAddress(nlas: seq<AddrNla>)
    ensures var r := Collect(nlas).addrBuf;
      && (r.None? <==> forall i :: 0 <= i < |nlas| ==> !nlas[i].Address?)
      && (r.Some? ==> exists i :: LastAt(nlas, i) && nlas[i] == Address(r.value))
  {
    if |nlas| > 0 {
      var prefix := nlas[..|nlas| - 1];
      CollectLastAddress(prefix);
      assert forall i :: 0 <= i < |prefix| ==> prefix[i] == nlas[i];
      if nlas[|nlas| - 1].Address? {
        assert LastAt(nlas, |nlas| - 1);
      } else {
        assert Collect(nlas).addrBuf == Collect(prefix).addrBuf;
        if Collect(prefix).addrBuf.Some? {
          var i :| LastAt(prefix, i) && prefix[i] == Address(Collect(prefix).addrBuf.value);
          assert LastAt(nlas, i);
        }
      }
    }
  }

  /** The loop keeps the last local attribute, and none if there is none. */
  lemma {:induction false} CollectLastLocal(nlas: seq<AddrNla>)
    ensures var r := Collect(nlas).localBuf;
      && (r.None? <==> forall i :: 0 <= i < |nlas| ==> !nlas[i].Local?)
      && (r.Some? ==> exists i :: LastAt(nlas, i) && nlas[i] == Local(r.value))
  {
    if |nlas| > 0 {
      var prefix := nlas[..|nlas| - 1];
      CollectLastLocal(prefix);
      assert forall i :: 0 <= i < |prefix| ==> prefix[i] == nlas[i];
      if nlas[|nlas| - 1].Local? {
        assert LastAt(nlas, |nlas| - 1);
      } else {
        assert Collect(nlas).localBuf == Collect(prefix).localBuf;
        if Collect(prefix).localBuf.Some? {
          var i :| LastAt(prefix, i) && prefix[i] == Local(Collect(prefix).localBuf.value);
          assert LastAt(nlas, i);
        }
      }
    }
  }

  /** The loop keeps the last flags attribute, and none if there is none. */
  lemma {:induction false} CollectLastFlags(nlas: seq<AddrNla>)
    ensures var r := Collect(nlas).flags;
      && (r.None? <==> forall i :: 0 <= i < |nlas| ==> !nlas[i].Flags?)
      && (r.Some? ==> exists i :: LastAt(nlas, i) && nlas[i] == Flags(r.value))
  {
    if |nlas| > 0 {
      var prefix := nlas[..|nlas| - 1];
      CollectLastFlags(prefix);
      assert forall i :: 0 <= i < |prefix| ==> prefix[i] == nlas[i];
      if nlas[|nlas| - 1].Flags? {
        assert LastAt(nlas, |nlas| - 1);
      } else {
        assert Collect(nlas).flags == Collect(prefix).flags;
        if Collect(prefix).flags.Some? {
          var i :| LastAt(prefix, i) && prefix[i] == Flags(Collect(prefix).flags.value);
          assert LastAt(nlas, i);
        }
      }
    }
  }

  /** Attribute `i` is the last of its kind in the list. */
  predicate LastAt(nlas: seq<AddrNla>, i: int) {
    && 0 <= i < |nlas|
    && forall k :: i < k < |nlas| ==> !SameKind(nlas[k], nlas[i])
  }

  predicate SameKind(a: AddrNla, b: AddrNla) {
    (a.Address? && b.Address?) || (a.Local? && b.Local?) || (a.Flags? && b.Flags?) || (a.OtherAddrNla? && b.OtherAddrNla?)
  }

  /** Whether a flags value marks a temporary address (`flags & IFA_F_TEMPORARY != 0`).
      The mask has a single bit, so the test reads that bit of the word;
      as the mask is bit 0, the temporary words are the odd ones. */
  predicate IsTemporary(flags: u32): (r: bool)
    ensures r <==> (flags as bv32) & (IFA_F_TEMPORARY as bv32) != 0
    ensures r <==> flags % 2 == 1
  {
    flags % (2 * IFA_F_TEMPORARY) >= IFA_F_TEMPORARY
  }

  /** Decodes an optional buffer (`and_then(buf_to_addr)`). */
  function DecodeBuf(buf: Option<seq<byte>>): Option<IpAddr> {
    if buf.Some? then BufToAddr(buf.value) else None
  }

  /** `message_local_addr`: no address for a temporary one; otherwise the
      local attribute when it decodes, else the address attribute when it
      decodes, else none. */
  function MessageLocalAddr(nlas: seq<AddrNla>): (r: Option<IpAddr>)
    ensures var c := Collect(nlas);
      c.flags.Some? && IsTemporary(c.flags.value) ==> r.None?
    ensures var c := Collect(nlas);
      !(c.flags.Some? && IsTemporary(c.flags.value)) && DecodeBuf(c.localBuf).Some? ==> r == DecodeBuf(c.localBuf)
    ensures var c := Collect(nlas);
      !(c.flags.Some? && IsTemporary(c.flags.value)) && DecodeBuf(c.localBuf).None? ==> r == DecodeBuf(c.addrBuf)
    ensures r.Some? ==>
      exists i :: 0 <= i < |nlas| && (nlas[i] == Address(r.value.Octets()) || nlas[i] == Local(r.value.Octets()))
  {
    CollectLastAddress(nlas);
    CollectLastLocal(nlas);
    var c := Collect(nlas);
    var addr := DecodeBuf(c.addrBuf);
    var local := DecodeBuf(c.localBuf);
    if c.flags.Some? && IsTemporary(c.flags.value) then None
    else if local.Some? then local
    else if addr.Some? then addr
    else None
  }

  /** A temporary flag as the last flags attribute drops the message,
      whatever addresses it carries. */
  lemma TemporaryDropped(nlas: seq<AddrNla>, i: nat)
    requires i < |nlas| && nlas[i].Flags? && IsTemporary(nlas[i].flags)
    requires forall k :: i < k < |nlas| ==> !nlas[k].Flags?
    ensures MessageLocalAddr(nlas).None?
  {
    CollectLastFlags(nlas);
    var c := Collect(nlas);
    var j :| LastAt(nlas, j) && nlas[j] == Flags(c.flags.value);
    assert j == i;
  }

  /** Without a temporary flag, the last local attribute wins over any
      address attribute when it has an address length. */
  lemma LocalPreferred(nlas: seq<AddrNla>, i: nat)
    requires forall k :: LastAt(nlas, k) && nlas[k].Flags? ==> !IsTemporary(nlas[k].flags)
    requires i < |nlas| && nlas[i].Local? && (|nlas[i].localBytes| == 4 || |nlas[i].localBytes| == 16)
    requires forall k :: i < k < |nlas| ==> !nlas[k].Local?
    ensures MessageLocalAddr(nlas) == BufToAddr(nlas[i].localBytes)
  {
    CollectLastLocal(nlas);
    CollectLastFlags(nlas);
    var c := Collect(nlas);
    var j :| LastAt(nlas, j) && nlas[j] == Local(c.localBuf.value);
    assert j == i;
    if c.flags.Some? {
      var f :| LastAt(nlas, f) && nlas[f] == Flags(c.flags.value);
    }
  }

  /** Without a temporary flag, and with no local attribute or a last
      local attribute that does not decode, the last address attribute is
      used, and only when it has an address length. */
  lemma AddressFallback(nlas: seq<AddrNla>, i: nat)
    requires forall k :: LastAt(nlas, k) && nlas[k].Flags? ==> !IsTemporary(nlas[k].flags)
    requires forall k :: LastAt(nlas, k) && nlas[k].Local? ==> BufToAddr(nlas[k].localBytes).None?
    requires i < |nlas| && nlas[i].Address?
    requires forall k :: i < k < |nlas| ==> !nlas[k].Address?
    ensures MessageLocalAddr(nlas) == BufToAddr(nlas[i].addrBytes)
  {
    CollectLastAddress(nlas);
    CollectLastLocal(nlas);
    CollectLastFlags(nlas);
    var c := Collect(nlas);
    var j :| LastAt(nlas, j) && nlas[j] == Address(c.addrBuf.value);
    assert j == i;
    if c.localBuf.Some? {
      var l :| LastAt(nlas, l) && nlas[l] == Local(c.localBuf.value);
    }
    if c.flags.Some? {
      var f :| LastAt(nlas, f) && nlas[f] == Flags(c.flags.value);
    }
  }

  /** `link_message_name`: the first interface-name attribute, if any. */
  function LinkMessageName(nlas: seq<LinkNla>): (r: Option<string>)
    ensures r.None? <==> forall i :: 0 <= i < |nlas| ==> !nlas[i].IfName?
    ensures r.Some? ==>
      exists i :: 0 <= i < |nlas| && nlas[i] == IfName(r.value) && forall k :: 0 <= k < i ==> !nlas[k].IfName?
  {
    if |nlas| == 0 then None
    else if nlas[0].IfName? then Some(nlas[0].name)
    else
      var r := LinkMessageName(nlas[1..]);
      assert forall i :: 1 <= i < |nlas| ==> nlas[i] == nlas[1..][i - 1];
      if r.Some? then
        var i :| 0 <= i < |nlas[1..]| && nlas[1..][i] == IfName(r.value)
          && forall k :: 0 <= k < i ==> !nlas[1..][k].IfName?;
        assert nlas[i + 1] == IfName(r.value);
        r
      else r
  }

  /** A notice sent to the main loop. */
  datatype Notice = Notice(iface: string, addr: IpAddr)

  /** The watcher's state after one message, and what it sent. */
  datatype WatchStep = WatchStep(names: map<u32, string>, sent: Option<Notice>)

  /** One message of the netlink stream: a named `NewLink` records or
      overwrites its index's name (an unnamed one changes nothing), a
      `DelLink` forgets the index, and a `NewAddress` for a known index
      with a usable address sends a notice with the interface's name. */
  function Handle(names: map<u32, string>, msg: RtnlMessage): (r: WatchStep)
    ensures !msg.NewAddress? ==> r.sent.None?
    ensures msg.NewLink? && LinkMessageName(msg.linkNlas).Some? ==>
      r.names == names[msg.linkIndex := LinkMessageName(msg.linkNlas).value]
    ensures msg.NewLink? && LinkMessageName(msg.linkNlas).None? ==> r.names == names
    ensures msg.DelLink? ==>
      r.names.Keys == names.Keys - {msg.delIndex} && forall i :: i in r.names ==> r.names[i] == names[i]
    ensures msg.NewAddress? || msg.OtherMessage? ==> r.names == names
    ensures msg.NewAddress? && msg.addrIndex !in names ==> r.sent.None?
    ensures msg.NewAddress? && msg.addrIndex in names ==>
      (r.sent.Some? <==> MessageLocalAddr(msg.addrNlas).Some?)
    ensures r.sent.Some? ==>
      && msg.NewAddress? && msg.addrIndex in names
      && r.sent.value == Notice(names[msg.addrIndex], MessageLocalAddr(msg.addrNlas).value)
  {
    match msg
    case NewLink(index, nlas) =>
      var name := LinkMessageName(nlas);
      WatchStep(if name.Some? then names[index := name.value] else names, None)
    case DelLink(index) =>
      WatchStep(names - {index}, None)
    case NewAddress(index, nlas) =>
      if index in names then
        var a := MessageLocalAddr(nlas);
        WatchStep(names, if a.Some? then Some(Notice(names[index], a.value)) else None)
      else
        WatchStep(names, None)
    case OtherMessage =>
      WatchStep(names, None)
  }

  /** After a link is named, its addresses are reported under that name. */
  lemma NewLinkThenAddress(names: map<u32, string>, index: u32, ifname: string, nlas: seq<AddrNla>)
    requires MessageLocalAddr(nlas).Some?
    ensures var t := Handle(names, NewLink(index, [IfName(ifname)])).names;
      Handle(t, NewAddress(index, nlas)).sent == Some(Notice(ifname, MessageLocalAddr(nlas).value))
  {
  }

  /** After a link is deleted, its addresses are no longer reported. */
  lemma DelLinkThenAddress(names: map<u32, string>, index: u32, nlas: seq<AddrNla>)
    ensures var t := Handle(names, DelLink(index)).names;
      Handle(t, NewAddress(index, nlas)).sent.None?
  {
  }
}

=== FILE: ipaddr.dfy ===
/** IP addresses as octet strings (`std::net::IpAddr`), IPv6 16-bit segments,
    CIDR scopes (`cidr::IpCidr`) and the neighbour address derivation of
    `RecordState::update`. */
module IpAddr {
  import opened Bytes

  type Octets4 = s: seq<byte> | |s| == 4 witness [0, 0, 0, 0]
  type Octets16 = s: seq<byte> | |s| == 16
    witness [0, 0, 0, 0, 0, 0, 0, 0, 0, 0, 0, 0, 0, 0, 0, 0]
  type Segments = s: seq<u16> | |s| == 8 witness [0, 0, 0, 0, 0, 0, 0, 0]

  datatype Family = IPv4 | IPv6

  /** An address of either family, bytes in network order. */
  datatype IpAddr = V4(v4: Octets4) | V6(v6: Octets16) {

    function Family(): Family {
      if V4? then IPv4 else IPv6
    }

    function Octets(): (r: seq<byte>)
      ensures |r| == if V4? then 4 else 16
    {
      if V4? then v4 else v6
    }
  }

  /** `Ipv6Addr::segments`: eight big-endian 16-bit groups. */
  function SegmentsOf(b: Octets16): (r: Segments)
    ensures forall i :: 0 <= i < 8 ==> r[i] == ReadU16(b[2 * i..])
  {
    seq(8, i requires 0 <= i < 8 => ReadU16(b[2 * i..]))
  }

  /** `Ipv6Addr::new(s0, ..., s7)`: the sixteen octets of eight segments. */
  function FromSegments(s: Segments): (r: Octets16)
    ensures forall i :: 0 <= i < 8 ==> r[2 * i..2 * i + 2] == U16(s[i])
  {
    var r: Octets16 := seq(16, i requires 0 <= i < 16 => U16(s[i / 2])[i % 2]);
    assert forall i :: 0 <= i < 8 ==> r[2 * i..2 * i + 2] == U16(s[i]) by {
      forall i | 0 <= i < 8 ensures r[2 * i..2 * i + 2] == U16(s[i]) {
        assert r[2 * i] == U16(s[i])[0];
        assert r[2 * i + 1] == U16(s[i])[1];
      }
    }
    r
  }

  /** Building an address from segments and reading them back is the identity. */
  lemma SegmentsRoundTrip(s: Segments)
    ensures SegmentsOf(FromSegments(s)) == s
  {
    var b := FromSegments(s);
    forall i | 0 <= i < 8 ensures SegmentsOf(b)[i] == s[i] {
      assert b[2 * i..][..2] == b[2 * i..2 * i + 2] == U16(s[i]);
    }
  }

  /** Reading an address's segments and rebuilding it is the identity. */
  lemma OctetsRoundTrip(b: Octets16)
    ensures FromSegments(SegmentsOf(b)) == b
  {
    var r := FromSegments(SegmentsOf(b));
    forall i | 0 <= i < 16 ensures r[i] == b[i] {
      var k := i / 2;
      assert r[2 * k..2 * k + 2] == U16(ReadU16(b[2 * k..]));
      U16OfRead(b[2 * k..]);
      assert r[i] == r[2 * k..2 * k + 2][i % 2];
    }
  }

  /** The neighbour address built in `update`: segments 0-3 of the parent
      (the /64 prefix), segments 4-7 of the configured neighbour address. */
  function DeriveNeighbor(parent: Octets16, host: Octets16): (r: Octets16)
    ensures forall i :: 0 <= i < 4 ==> SegmentsOf(r)[i] == SegmentsOf(parent)[i]
    ensures forall i :: 4 <= i < 8 ==> SegmentsOf(r)[i] == SegmentsOf(host)[i]
    ensures r == parent[..8] + host[8..]
  {
    var net := SegmentsOf(parent);
    var hs := SegmentsOf(host);
    var segs: Segments := net[..4] + hs[4..];
    SegmentsRoundTrip(segs);
    var r := FromSegments(segs);
    PrefixHostBytes(parent, host, r);
    r
  }

  /** Byte view of `DeriveNeighbor`: the upper 64 bits come from the parent,
      the lower 64 bits from the neighbour's configured address. */
  lemma PrefixHostBytes(parent: Octets16, host: Octets16, r: Octets16)
    requires r == FromSegments(SegmentsOf(parent)[..4] + SegmentsOf(host)[4..])
    ensures r == parent[..8] + host[8..]
  {
    var segs: Segments := SegmentsOf(parent)[..4] + SegmentsOf(host)[4..];
    var want := parent[..8] + host[8..];
    forall k | 0 <= k < 8 ensures r[2 * k] == want[2 * k] && r[2 * k + 1] == want[2 * k + 1] {
      var src := if k < 4 then parent else host;
      assert segs[k] == SegmentsOf(src)[k];
      SegmentBytes(src, k);
      assert r[2 * k..2 * k + 2] == src[2 * k..2 * k + 2];
      assert r[2 * k] == src[2 * k];
      assert r[2 * k + 1] == src[2 * k + 1];
    }
    forall i | 0 <= i < 16 ensures r[i] == want[i] {
      var k := i / 2;
      assert i == 2 * k || i == 2 * k + 1;
    }
  }

  /** Segment `k` written back out is the octet pair it was read from. */
  lemma SegmentBytes(b: Octets16, k: nat)
    requires k < 8
    ensures U16(SegmentsOf(b)[k]) == b[2 * k..2 * k + 2]
  {
    U16OfRead(b[2 * k..]);
    assert b[2 * k..][..2] == b[2 * k..2 * k + 2];
  }

  /** A /64 prefix `2001:db8::/64` and the neighbour host part
      `::2de:adff:fe00:beef` give `2001:db8::2de:adff:fe00:beef`. */
  lemma NeighborExample(parent: Octets16, host: Octets16)
    requires parent == [0x20, 0x01, 0x0d, 0xb8, 0, 0, 0, 0, 0, 0, 0, 0, 0, 0, 0, 0x01]
    requires host == [0, 0, 0, 0, 0, 0, 0, 0, 0x02, 0xde, 0xad, 0xff, 0xfe, 0x00, 0xbe, 0xef]
    ensures DeriveNeighbor(parent, host)
      == [0x20, 0x01, 0x0d, 0xb8, 0, 0, 0, 0, 0x02, 0xde, 0xad, 0xff, 0xfe, 0x00, 0xbe, 0xef]
  {
    var r := DeriveNeighbor(parent, host);
    var want: seq<byte> := [0x20, 0x01, 0x0d, 0xb8, 0, 0, 0, 0, 0x02, 0xde, 0xad, 0xff, 0xfe, 0x00, 0xbe, 0xef];
    forall i | 0 <= i < 16 ensures r[i] == want[i] {
      if i < 8 {
        assert r[i] == parent[i];
      } else {
        assert r[i] == host[i];
      }
    }
  }

  // ---------------------------------------------------------------------
  // CIDR scopes

  /** A network and a prefix length (`cidr::IpCidr`); the address carries the family. */
  datatype Cidr = Cidr(network: IpAddr, prefixLen: nat)

  /** Weight of bit `k` (0 = most significant) of a byte. */
  function BitWeight(k: nat): nat
    requires k < 8
  {
    [128, 64, 32, 16, 8, 4, 2, 1][k]
  }

  /** Bit `i` of an octet string, counted from the most significant bit of the first octet. */
  function Bit(b: seq<byte>, i: nat): nat
    requires i < 8 * |b|
  {
    (b[i / 8] / BitWeight(i % 8)) % 2
  }

  /** Maximal prefix length of a family. */
  function MaxPrefixLen(f: Family): nat {
    if f == IPv4 then 32 else 128
  }

  /** A scope as the `cidr` crate accepts it: a prefix length within the
      family's width and no host bits set in the network address. */
  predicate ValidCidr(c: Cidr) {
    && c.prefixLen <= MaxPrefixLen(c.network.Family())
    && forall i :: c.prefixLen <= i < 8 * |c.network.Octets()| ==> Bit(c.network.Octets(), i) == 0
  }

  /** `IpCidr::contains`: same family and the first `prefixLen` bits agree. */
  predicate Contains(c: Cidr, a: IpAddr): (r: bool)
    ensures r ==> c.network.Family() == a.Family()
    ensures c.network == a && c.prefixLen <= 8 * |a.Octets()| ==> r
    ensures c.prefixLen == 0 && c.network.Family() == a.Family() ==> r
  {
    && c.network.Family() == a.Family()
    && c.prefixLen <= 8 * |a.Octets()|
    && forall i :: 0 <= i < c.prefixLen ==> Bit(a.Octets(), i) == Bit(c.network.Octets(), i)
  }

  /** `0.0.0.0/0`, the default scope of an A record. */
  const ANY_V4: Cidr := Cidr(V4([0, 0, 0, 0]), 0)

  /** `2000::/3`, the default scope of an AAAA record (global unicast). */
  const GLOBAL_UNICAST_V6: Cidr :=
    Cidr(V6([0x20, 0, 0, 0, 0, 0, 0, 0, 0, 0, 0, 0, 0, 0, 0, 0]), 3)

  /** The default scope contains every IPv4 address and no IPv6 address. */
  lemma AnyV4Contains(a: IpAddr)
    ensures Contains(ANY_V4, a) <==> a.V4?
  {
  }

  /** `2000::/3` contains exactly the IPv6 addresses whose first octet is 0x20-0x3f. */
  lemma GlobalUnicastContains(a: IpAddr)
    ensures Contains(GLOBAL_UNICAST_V6, a) <==> a.V6? && 0x20 <= a.v6[0] < 0x40
  {
    if a.V6? {
      var x := a.v6[0];
      TopBitsOf0x20(x);
      var n := GLOBAL_UNICAST_V6.network.Octets();
      assert Bit(a.Octets(), 0) == (x / 128) % 2;
      assert Bit(a.Octets(), 1) == (x / 64) % 2;
      assert Bit(a.Octets(), 2) == (x / 32) % 2;
      assert Bit(n, 0) == 0 && Bit(n, 1) == 0 && Bit(n, 2) == 1;
      if Contains(GLOBAL_UNICAST_V6, a) {
        assert Bit(a.Octets(), 0) == 0 && Bit(a.Octets(), 1) == 0 && Bit(a.Octets(), 2) == 1;
      } else {
        var i :| 0 <= i < 3 && Bit(a.Octets(), i) != Bit(n, i);
      }
    }
  }

  /** The first three bits of a byte are 001 exactly when it lies in 0x20-0x3f. */
  lemma TopBitsOf0x20(x: byte)
    ensures ((x / 128) % 2 == 0 && (x / 64) % 2 == 0 && (x / 32) % 2 == 1) <==> 0x20 <= x < 0x40
  {
    if x < 0x20 {
      assert x / 32 == 0;
    } else if x < 0x40 {
      assert x / 128 == 0 && x / 64 == 0 && x / 32 == 1;
    } else if x < 0x80 {
      assert x / 128 == 0 && x / 64 == 1;
    } else {
      assert x / 128 == 1;
    }
  }

  /** Both default scopes are well formed. */
  lemma DefaultScopesValid()
    ensures ValidCidr(ANY_V4)
    ensures ValidCidr(GLOBAL_UNICAST_V6)
  {
    var z := ANY_V4.network.Octets();
    forall i | 0 <= i < 32 ensures Bit(z, i) == 0 {
      assert z[i / 8] == 0;
    }
    var n := GLOBAL_UNICAST_V6.network.Octets();
    forall i | 3 <= i < 128 ensures Bit(n, i) == 0 {
      if i < 8 {
        assert i / 8 == 0 && i % 8 == i;
        assert BitWeight(i) in {16, 8, 4, 2, 1};
      } else {
        assert 1 <= i / 8 < 16;
        assert n[i / 8] == 0;
      }
    }
  }
}

=== FILE: record_state.dfy ===
/** The per-record update state machine of `RecordState` (src/lib.rs):
    scope filtering of notified addresses, the dirty flag, the fixed
    60-second retry rule and the update of a record and its IPv6 neighbours.
    Time is a number of seconds; the DNS server is an oracle. */
module RecordStates {
  import opened Wrappers
  import opened Bytes
  import opened IpAddr

  /** Seconds between two attempts for the same record (`RETRY_INTERVAL`). */
  const RETRY_INTERVAL: nat := 60

  /** The fields of an `[[a]]` / `[[aaaa]]` entry that `RecordState::new`
      reads. The scope is taken already parsed. */
  datatype UpdateTask = UpdateTask(
    name: Option<string>,
    zone: Option<string>,
    ttl: Option<u32>,
    scope: Option<Cidr>,
    neighbors: Option<map<string, Octets16>>)

  /** One configured record: its settings, the last accepted address,
      whether it still has to be pushed, and when that was last tried. */
  datatype RecordState = RecordState(
    name: Option<string>,
    neighbors: map<string, Octets16>,
    addr: Option<IpAddr>,
    ttl: u32,
    zone: Option<string>,
    scope: Cidr,
    dirty: bool,
    updateTried: Option<nat>)

  /** The configurations `new` refuses (it panics on them). */
  datatype ConfigError = NeighborsOnIpv4 | ScopeFamilyMismatch(scope: Cidr, family: Family)

  /** The record type of an address's family. */
  datatype RecordType = A | AAAA

  function RecordTypeOf(a: IpAddr): (r: RecordType)
    ensures r == A <==> a.V4?
    ensures r == AAAA <==> a.V6?
  {
    if a.V4? then A else AAAA
  }

  /** The DNS server as seen from a record: the answer to a query (None
      when the query failed) and whether an update succeeded. */
  datatype DnsServer = DnsServer(
    query: (string, RecordType) -> Option<seq<IpAddr>>,
    update: (string, IpAddr, Option<string>, u32) -> bool)

  /** The invariant every reachable state keeps: a dirty record has an
      address to push, and the held address lies in the record's scope. */
  predicate Valid(s: RecordState) {
    && ValidCidr(s.scope)
    && (s.dirty ==> s.addr.Some?)
    && (s.addr.Some? ==> Contains(s.scope, s.addr.value))
  }

  /** The scope used when the entry has none. */
  function DefaultScope(af: Family): (c: Cidr)
    ensures ValidCidr(c)
    ensures c.network.Family() == af
    ensures af == IPv4 ==> c == ANY_V4
    ensures af == IPv6 ==> c == GLOBAL_UNICAST_V6
  {
    DefaultScopesValid();
    if af == IPv4 then ANY_V4 else GLOBAL_UNICAST_V6
  }

  /** `RecordState::new`: defaults and the two configuration checks, in the
      order the source makes them. */
  function New(task: UpdateTask, af: Family): (r: Result<RecordState, ConfigError>)
    requires task.scope.Some? ==> ValidCidr(task.scope.value)
    ensures af == IPv4 && task.neighbors.Some? ==> r == Failure(NeighborsOnIpv4)
    ensures !(af == IPv4 && task.neighbors.Some?) && task.scope.GetOr(DefaultScope(af)).network.Family() != af ==>
      r == Failure(ScopeFamilyMismatch(task.scope.GetOr(DefaultScope(af)), af))
    ensures r.Failure? ==> r.error == NeighborsOnIpv4 || r.error.ScopeFamilyMismatch?
    ensures r.Success? <==>
      && (af == IPv4 ==> task.neighbors.None?)
      && task.scope.GetOr(DefaultScope(af)).network.Family() == af
    ensures r.Success? ==>
      && r.value.scope == (if task.scope.Some? then task.scope.value
                           else if af == IPv4 then ANY_V4 else GLOBAL_UNICAST_V6)
      && r.value.ttl == (if task.ttl.Some? then task.ttl.value else 0)
      && r.value.neighbors == (if task.neighbors.Some? then task.neighbors.value else map[])
      && r.value.name == task.name && r.value.zone == task.zone
      && r.value.addr.None? && !r.value.dirty && r.value.updateTried.None?
      && Valid(r.value)
  {
    var scope := task.scope.GetOr(DefaultScope(af));
    if af == IPv4 && task.neighbors.Some? then
      Failure(NeighborsOnIpv4)
    else if scope.network.Family() != af then
      Failure(ScopeFamilyMismatch(scope, af))
    else
      Success(RecordState(
        task.name, task.neighbors.GetOr(map[]), None, task.ttl.GetOr(0),
        task.zone, scope, false, None))
  }

  /** The result of `set_address`: whether the address was taken, and the new state. */
  datatype SetOutcome = SetOutcome(changed: bool, state: RecordState)

  /** `set_address`: an address outside the scope, or the one already held,
      is ignored; any other becomes the record's address and marks it dirty
      with a fresh retry history. */
  function SetAddress(s: RecordState, a: IpAddr): (r: SetOutcome)
    ensures r.changed <==> Contains(s.scope, a) && s.addr != Some(a)
    ensures !r.changed ==> r.state == s
    ensures r.changed ==>
      && r.state.addr == Some(a) && r.state.dirty && r.state.updateTried.None?
      && r.state.(addr := s.addr, dirty := s.dirty, updateTried := s.updateTried) == s
    ensures Valid(s) ==> Valid(r.state)
  {
    if !Contains(s.scope, a) then SetOutcome(false, s)
    else if s.addr == Some(a) then SetOutcome(false, s)
    else SetOutcome(true, s.(addr := Some(a), dirty := true, updateTried := None))
  }

  /** Notifying the same address twice: the second notification changes nothing. */
  lemma SetAddressIdempotent(s: RecordState, a: IpAddr)
    ensures SetAddress(SetAddress(s, a).state, a) == SetOutcome(false, SetAddress(s, a).state)
  {
  }

  /** `can_update`: a clean record never, a dirty record never tried at
      once, otherwise once `RETRY_INTERVAL` seconds have passed. */
  function CanUpdate(s: RecordState, now: nat): (r: bool)
    ensures !s.dirty ==> !r
    ensures s.dirty && s.updateTried.None? ==> r
    ensures s.dirty && s.updateTried.Some? ==> (r <==> now >= s.updateTried.value + RETRY_INTERVAL)
  {
    if !s.dirty then false
    else
      match s.updateTried
      case None => true
      case Some(tried) => now >= tried + RETRY_INTERVAL
  }

  /** `next_timeout`: the instant the record next wants attention, if any. */
  function NextTimeout(s: RecordState, now: nat): (r: Option<nat>)
    ensures r.Some? <==> s.dirty
    ensures r.Some? && s.updateTried.Some? ==> r.value == s.updateTried.value + RETRY_INTERVAL
    ensures s.dirty && s.updateTried.None? ==> r == Some(now)
  {
    if s.dirty then
      match s.updateTried
      case Some(tried) => Some(tried + RETRY_INTERVAL)
      case None => Some(now)
    else None
  }

  /** `can_update` agrees with `next_timeout`: a record may be updated
      exactly when it has a deadline and the deadline has passed. */
  lemma CanUpdateIffDeadlinePassed(s: RecordState, now: nat)
    ensures CanUpdate(s, now) <==> NextTimeout(s, now).Some? && NextTimeout(s, now).value <= now
  {
  }

  /** Once a record may be updated it stays so as time advances. */
  lemma CanUpdateMonotone(s: RecordState, now: nat, later: nat)
    requires now <= later
    ensures CanUpdate(s, now) ==> CanUpdate(s, later)
  {
  }

  /** What `update_addr` observed: the server already held exactly this
      address, or an update was sent and succeeded or failed. */
  datatype AddrOutcome = UpToDate | Sent(ok: bool) {
    predicate Ok() {
      UpToDate? || ok
    }
  }

  /** `update_addr`: query the record; when the answer is exactly the one
      address, nothing is sent; on any other answer, or a failed query,
      the delete-and-add update is sent. */
  function UpdateAddr(server: DnsServer, s: RecordState, name: string, addr: IpAddr): (r: AddrOutcome)
    ensures r.UpToDate? <==> server.query(name, RecordTypeOf(addr)) == Some([addr])
    ensures r.Sent? ==> r.ok == server.update(name, addr, s.zone, s.ttl)
  {
    var answer := server.query(name, RecordTypeOf(addr));
    if answer.Some? && |answer.value| == 1 && answer.value[0] == addr then
      assert answer.value == [addr];
      UpToDate
    else Sent(server.update(name, addr, s.zone, s.ttl))
  }

  /** The names and derived addresses of the neighbours of an IPv6 record. */
  function NeighborTargets(s: RecordState): (r: map<string, IpAddr>)
    requires s.addr.Some?
    ensures s.addr.value.V4? ==> r == map[]
    ensures s.addr.value.V6? ==> r.Keys == s.neighbors.Keys
    ensures forall n :: n in r ==>
      && r[n].V6?
      && (forall i :: 0 <= i < 4 ==> SegmentsOf(r[n].v6)[i] == SegmentsOf(s.addr.value.v6)[i])
      && (forall i :: 4 <= i < 8 ==> SegmentsOf(r[n].v6)[i] == SegmentsOf(s.neighbors[n])[i])
  {
    match s.addr.value
    case V4(_) => map[]
    case V6(parent) => map n | n in s.neighbors :: V6(DeriveNeighbor(parent, s.neighbors[n]))
  }

  /** The result of `update`: the new state, what happened to the record's
      own name (None when it has no name), the neighbours attempted and
      what `update_addr` observed for each of them. */
  datatype UpdateOutcome = UpdateOutcome(
    state: RecordState,
    main: Option<AddrOutcome>,
    neighbors: map<string, IpAddr>,
    neighborOutcomes: map<string, AddrOutcome>)

  /** `update`: mark the attempt, push the record's own name, and only if
      that did not fail push every neighbour. Only the record's own failure
      marks it dirty again; neighbour failures are ignored. */
  function Update(s: RecordState, now: nat, server: DnsServer): (r: UpdateOutcome)
    requires s.addr.Some?
    ensures r.state.updateTried == Some(now)
    ensures r.state.(dirty := s.dirty, updateTried := s.updateTried) == s
    ensures r.main.Some? <==> s.name.Some?
    ensures r.main.Some? ==> r.main.value == UpdateAddr(server, s, s.name.value, s.addr.value)
    ensures r.state.dirty <==> r.main.Some? && !r.main.value.Ok()
    ensures r.state.dirty ==> r.neighbors == map[]
    ensures !r.state.dirty ==> r.neighbors == NeighborTargets(s)
    ensures r.neighborOutcomes.Keys == r.neighbors.Keys
    ensures forall n :: n in r.neighborOutcomes ==>
      r.neighborOutcomes[n] == UpdateAddr(server, s, n, r.neighbors[n])
    ensures Valid(s) ==> Valid(r.state)
  {
    var addr := s.addr.value;
    var tried := s.(dirty := false, updateTried := Some(now));
    if s.name.Some? then
      var o := UpdateAddr(server, tried, s.name.value, addr);
      if !o.Ok() then
        UpdateOutcome(tried.(dirty := true), Some(o), map[], map[])
      else
        UpdateOutcome(tried, Some(o), NeighborTargets(s), PushNeighbors(server, tried, NeighborTargets(s)))
    else
      UpdateOutcome(tried, None, NeighborTargets(s), PushNeighbors(server, tried, NeighborTargets(s)))
  }

  /** The neighbour loop of `update`: every target goes through
      `update_addr` with the record's zone and TTL; failures are only logged. */
  function PushNeighbors(server: DnsServer, s: RecordState, targets: map<string, IpAddr>): (r: map<string, AddrOutcome>)
    ensures r.Keys == targets.Keys
    ensures forall n :: n in r ==>
      (r[n].UpToDate? <==> server.query(n, RecordTypeOf(targets[n])) == Some([targets[n]]))
  {
    map n | n in targets :: UpdateAddr(server, s, n, targets[n])
  }

  /** The retry rule after an attempt at `now`: a successful record rests
      until its address changes, a failed one becomes eligible again
      exactly `RETRY_INTERVAL` seconds later, however often it fails. */
  lemma RetryAfterInterval(s: RecordState, now: nat, server: DnsServer, later: nat)
    requires s.addr.Some?
    ensures var t := Update(s, now, server).state;
      CanUpdate(t, later) <==> t.dirty && later >= now + RETRY_INTERVAL
  {
  }

  /** The unwrap in `update` cannot fail when it is called as the event
      loop calls it: after `can_update` on a valid state. */
  lemma UpdatableHasAddress(s: RecordState, now: nat)
    requires Valid(s)
    requires CanUpdate(s, now)
    ensures s.addr.Some?
  {
  }

  /** A new address arriving after an attempt cancels the wait: the
      record is eligible immediately. */
  lemma NewAddressResetsRetry(s: RecordState, a: IpAddr, now: nat)
    requires SetAddress(s, a).changed
    ensures CanUpdate(SetAddress(s, a).state, now)
  {
  }

  /** An A record with the default scope: the first address is taken,
      pushed at once, and on success the record rests; a failed push
      would leave it dirty for a retry. */
  lemma FirstAddressScenario(server: DnsServer, now: nat)
    requires server.query("client.example.net", A) == Some([])
    ensures var task := UpdateTask(Some("client.example.net"), Some("example.net"), None, None, None);
      var a := V4([127, 0, 1, 1]);
      && New(task, IPv4).Success?
      && var s := SetAddress(New(task, IPv4).value, a);
      && s.changed && CanUpdate(s.state, now)
      && var u := Update(s.state, now, server);
      && u.main == Some(Sent(server.update("client.example.net", a, Some("example.net"), 0)))
      && u.state.addr == Some(a)
      && (u.state.dirty <==> !server.update("client.example.net", a, Some("example.net"), 0))
  {
    AnyV4Contains(V4([127, 0, 1, 1]));
  }
}

=== FILE: tsig.dfy ===
/** The hand-written TSIG signer (src/dns/tsig.rs and its newer copy
    src/dns/tsig2.rs, which differ only in that the older one carries an
    always-empty `other_data` field): the algorithm names of RFC 4635, the
    RDATA layout of section 2.3 of RFC 2845, and the byte string the MAC is
    computed over (section 3.4 of RFC 2845). HMAC is a parameter and the
    DNS message is its already encoded bytes. */
module Tsig {
  import opened Wrappers
  import opened Bytes
  import opened DnsName

  /** Permitted clock skew in seconds; fixed in `create_tsig`. */
  const FUDGE: u16 := 300
  /** `DNSClass::ANY`. */
  const CLASS_ANY: u16 := 255
  /** The RR type code of TSIG, given to `RData::Unknown`. */
  const TSIG_TYPE: u16 := 250
  /** `ResponseCode::NoError`. */
  const NO_ERROR: u16 := 0

  datatype Algorithm = HmacSha224 | HmacSha256 | HmacSha384 | HmacSha512

  datatype UnknownAlgorithm = UnknownAlgorithm

  /** An HMAC output: at most 64 bytes (SHA-512). */
  type Digest = s: seq<byte> | |s| <= 64

  /** HMAC over (algorithm, secret, input); left uninterpreted. */
  type MacFn = (Algorithm, seq<byte>, seq<byte>) -> Digest

  /** A TSIG key: its name, algorithm and raw secret. */
  datatype Key = Key(name: Name, algorithm: Algorithm, secret: seq<byte>)

  /** A DNS message to be signed: its id and its wire form before the TSIG record. */
  datatype Message = Message(id: u16, wire: seq<byte>)

  /** The TSIG RDATA fields (`TSIG` in tsig.rs, `Tsig` in tsig2.rs). */
  datatype TsigRdata = TsigRdata(
    algorithmName: Name,
    timeSigned: u64,
    fudge: u16,
    mac: seq<byte>,
    originalId: u16,
    error: u16,
    otherData: seq<byte>)

  /** The record `create_signature` returns. */
  datatype SigRecord = SigRecord(owner: Name, ttl: u32, dnsClass: u16, rrType: u16, rdata: seq<byte>)

  // ---------------------------------------------------------------------
  // Algorithm names

  /** The one-label names `hmac-sha224` ... `hmac-sha512`, as bytes. */
  function AsName(a: Algorithm): (r: Name)
    ensures Canonical(r) == r
  {
    var hmacSha := [0x68, 0x6d, 0x61, 0x63, 0x2d, 0x73, 0x68, 0x61];
    var n := Name([hmacSha + match a
      case HmacSha224 => [0x32, 0x32, 0x34]
      case HmacSha256 => [0x32, 0x35, 0x36]
      case HmacSha384 => [0x33, 0x38, 0x34]
      case HmacSha512 => [0x35, 0x31, 0x32]]);
    assert LowerLabel(n.labels[0]) == n.labels[0];
    n
  }

  /** `Algorithm::from_name`: the first algorithm whose name equals `n`
      (ignoring case), or `UnknownAlgorithm`. */
  function FromName(n: Name): (r: Result<Algorithm, UnknownAlgorithm>)
    ensures r.Success? ==> NameEq(n, AsName(r.value))
    ensures r.Failure? <==> forall a: Algorithm :: !NameEq(n, AsName(a))
  {
    if NameEq(n, AsName(HmacSha224)) then Success(HmacSha224)
    else if NameEq(n, AsName(HmacSha256)) then Success(HmacSha256)
    else if NameEq(n, AsName(HmacSha384)) then Success(HmacSha384)
    else if NameEq(n, AsName(HmacSha512)) then Success(HmacSha512)
    else Failure(UnknownAlgorithm)
  }

  /** The four names are pairwise different. */
  lemma AsNameInjective(a: Algorithm, b: Algorithm)
    requires a != b
    ensures !NameEq(AsName(a), AsName(b))
  {
    assert AsName(a).labels[0][8..] != AsName(b).labels[0][8..];
  }

  /** Every algorithm is found again from its name, in any letter case. */
  lemma FromNameAsName(a: Algorithm, n: Name)
    requires NameEq(n, AsName(a))
    ensures FromName(n) == Success(a)
  {
    if FromName(n).Success? && FromName(n).value != a {
      AsNameInjective(a, FromName(n).value);
    }
  }

  // ---------------------------------------------------------------------
  // RDATA

  /** `TSIG::emit` into a canonical encoder: algorithm name, 48-bit time,
      fudge, MAC length (cast to 16 bits), MAC, original id, error, and an
      other-data length of 0; the other data itself is never written. */
  function EmitRdata(t: TsigRdata): (r: seq<byte>)
    ensures |r| == |CanonicalWire(t.algorithmName)| + 16 + |t.mac|
    ensures r[..|CanonicalWire(t.algorithmName)|] == CanonicalWire(t.algorithmName)
    ensures r[|r| - 2..] == [0, 0]
  {
    CanonicalWire(t.algorithmName) + EmitU48(t.timeSigned) + U16(t.fudge)
      + U16(|t.mac| % 0x1_0000) + t.mac + U16(t.originalId) + U16(t.error) + U16(0)
  }

  /** The fields after the algorithm name, read from the front of `b`,
      which must hold exactly them. */
  function ParseFixed(name: Name, b: seq<byte>): Option<TsigRdata> {
    if |b| < 10 then None
    else
      var macLen := ReadU16(b[8..]);
      if |b| < 16 + macLen then None
      else
        var tail := b[10 + macLen..];
        var otherLen := ReadU16(tail[4..]);
        if |tail| != 6 + otherLen then None
        else
          Some(TsigRdata(name, ReadU48(b), ReadU16(b[6..]), b[10..10 + macLen],
                         ReadU16(tail), ReadU16(tail[2..]), tail[6..]))
  }

  /** Reads TSIG RDATA as a receiver would (section 2.3 of RFC 2845). */
  function ParseRdata(b: seq<byte>): Option<TsigRdata> {
    match ParseName(b)
    case None => None
    case Some(p) => ParseFixed(p.value, b[p.used..])
  }

  /** Emitted RDATA reads back as the same fields: the name in canonical
      form, the time reduced to its 48 encoded bits, and no other data. */
  lemma ParseEmitRdata(t: TsigRdata)
    requires |t.mac| < 0x1_0000
    ensures ParseRdata(EmitRdata(t)) ==
      Some(t.(algorithmName := Canonical(t.algorithmName), timeSigned := t.timeSigned % TWO_48, otherData := []))
  {
    var fixed := EmitU48(t.timeSigned) + U16(t.fudge) + U16(|t.mac|) + t.mac
      + U16(t.originalId) + U16(t.error) + U16(0);
    var name := Canonical(t.algorithmName);
    assert |t.mac| % 0x1_0000 == |t.mac|;
    assert EmitRdata(t) == Wire(name) + fixed;
    ParseAfterName(name, fixed);
    ParseEmitFixed(t);
  }

  /** RDATA that starts with a name's wire form parses the rest as the fixed fields. */
  lemma ParseAfterName(name: Name, fixed: seq<byte>)
    ensures ParseRdata(Wire(name) + fixed) == ParseFixed(name, fixed)
  {
    var b := Wire(name) + fixed;
    ParseWire(name, fixed);
    assert b[|Wire(name)|..] == fixed;
  }

  /** The part of `ParseEmitRdata` after the name. */
  lemma ParseEmitFixed(t: TsigRdata)
    requires |t.mac| < 0x1_0000
    ensures var fixed := EmitU48(t.timeSigned) + U16(t.fudge) + U16(|t.mac|) + t.mac
      + U16(t.originalId) + U16(t.error) + U16(0);
      ParseFixed(Canonical(t.algorithmName), fixed) ==
        Some(t.(algorithmName := Canonical(t.algorithmName), timeSigned := t.timeSigned % TWO_48, otherData := []))
  {
    var head := EmitU48(t.timeSigned) + U16(t.fudge) + U16(|t.mac|);
    var tail := U16(t.originalId) + U16(t.error) + U16(0);
    var fixed := head + t.mac + tail;
    assert fixed == EmitU48(t.timeSigned) + U16(t.fudge) + U16(|t.mac|) + t.mac
      + U16(t.originalId) + U16(t.error) + U16(0);
    assert |head| == 10;
    assert fixed[..6] == EmitU48(t.timeSigned);
    assert fixed[6..][..2] == U16(t.fudge);
    assert fixed[8..][..2] == U16(|t.mac|);
    assert fixed[10..10 + |t.mac|] == t.mac;
    assert fixed[10 + |t.mac|..] == tail;
    assert tail[2..][..2] == U16(t.error);
    assert tail[4..][..2] == U16(0);
    assert tail[6..] == [];
    assert ReadU48(fixed) == ReadU48(EmitU48(t.timeSigned)) == t.timeSigned % TWO_48;
    assert ReadU16(fixed[6..]) == ReadU16(U16(t.fudge)) == t.fudge;
    assert ReadU16(fixed[8..]) == ReadU16(U16(|t.mac|)) == |t.mac|;
    assert ReadU16(tail) == t.originalId;
    assert ReadU16(tail[2..]) == ReadU16(U16(t.error)) == t.error;
    assert ReadU16(tail[4..]) == ReadU16(U16(0)) == 0;
  }

  // ---------------------------------------------------------------------
  // Signing

  /** The TSIG variables in the order of section 3.4.2 of RFC 2845, given
      the values a record carries: owner, class, TTL, and the RDATA fields
      other than the MAC and the original id. */
  function Variables(owner: Name, dnsClass: u16, ttl: u32, t: TsigRdata): seq<byte>
    requires |t.otherData| < 0x1_0000
  {
    CanonicalWire(owner) + U16(dnsClass) + U32(ttl) + CanonicalWire(t.algorithmName)
      + EmitU48(t.timeSigned) + U16(t.fudge) + U16(t.error) + U16(|t.otherData|) + t.otherData
  }

  /** `create_tsig`'s MAC input: the message, the key name in canonical
      form, class ANY, TTL 0, the algorithm's name, the time, the fudge,
      error NoError and other-data length 0. */
  function MacInput(msg: Message, key: Key, time: u64): (r: seq<byte>)
    ensures |r| >= |msg.wire| && r[..|msg.wire|] == msg.wire
    ensures r[|msg.wire|..] == Variables(key.name, CLASS_ANY, 0,
      TsigRdata(AsName(key.algorithm), time, FUDGE, [], msg.id, NO_ERROR, []))
  {
    var vars := CanonicalWire(key.name) + U16(CLASS_ANY) + U32(0)
      + CanonicalWire(AsName(key.algorithm)) + EmitU48(time) + U16(FUDGE)
      + U16(NO_ERROR) + U16(0);
    assert vars == Variables(key.name, CLASS_ANY, 0,
      TsigRdata(AsName(key.algorithm), time, FUDGE, [], msg.id, NO_ERROR, []));
    var r := msg.wire + vars;
    assert r[|msg.wire|..] == vars;
    r
  }

  /** `create_tsig`: the TSIG fields for a message, signed with the key's algorithm. */
  function CreateTsig(msg: Message, time: u64, key: Key, mac: MacFn): (r: TsigRdata)
    ensures r.fudge == FUDGE && r.error == NO_ERROR && r.otherData == []
    ensures r.originalId == msg.id && r.timeSigned == time
    ensures r.algorithmName == AsName(key.algorithm)
    ensures FromName(r.algorithmName) == Success(key.algorithm)
    ensures r.mac == mac(key.algorithm, key.secret, MacInput(msg, key, time))
  {
    FromNameAsName(key.algorithm, AsName(key.algorithm));
    TsigRdata(AsName(key.algorithm), time, FUDGE,
      mac(key.algorithm, key.secret, MacInput(msg, key, time)), msg.id, NO_ERROR, [])
  }

  /** `create_signature`: the TSIG record, owned by the key name, TTL 0,
      class ANY, type 250, whose RDATA reads back as the signed fields. */
  function CreateSignature(msg: Message, time: u64, key: Key, mac: MacFn): (r: SigRecord)
    ensures r.owner == key.name && r.ttl == 0 && r.dnsClass == CLASS_ANY && r.rrType == TSIG_TYPE
    ensures ParseRdata(r.rdata).Some?
    ensures var t := ParseRdata(r.rdata).value;
      && t.algorithmName == AsName(key.algorithm)
      && t.timeSigned == time % TWO_48 && t.fudge == FUDGE
      && t.mac == mac(key.algorithm, key.secret, MacInput(msg, key, time))
      && t.originalId == msg.id && t.error == NO_ERROR && t.otherData == []
  {
    var t := CreateTsig(msg, time, key, mac);
    ParseEmitRdata(t);
    CanonicalIdempotent(t.algorithmName);
    SigRecord(key.name, 0, CLASS_ANY, TSIG_TYPE, EmitRdata(t))
  }

  /** A receiver's check of a request's TSIG record against the message
      bytes it covers (section 4.5 of RFC 8945): the record's shape, its
      owner and algorithm against the key, and the MAC recomputed over the
      message and the variables read from the record. */
  predicate Verify(wire: seq<byte>, rec: SigRecord, key: Key, mac: MacFn) {
    && rec.rrType == TSIG_TYPE && rec.dnsClass == CLASS_ANY && rec.ttl == 0
    && NameEq(rec.owner, key.name)
    && var parsed := ParseRdata(rec.rdata);
    && parsed.Some?
    && |parsed.value.otherData| < 0x1_0000
    && FromName(parsed.value.algorithmName) == Success(key.algorithm)
    && parsed.value.mac == mac(key.algorithm, key.secret, wire + Variables(rec.owner, rec.dnsClass, rec.ttl, parsed.value))
  }

  /** What the signer writes, a receiver holding the same key accepts: the
      bytes the MAC covers are exactly those the receiver rebuilds from the
      record, for every time value (the 48-bit truncation is applied alike
      to both). */
  lemma SignThenVerify(msg: Message, time: u64, key: Key, mac: MacFn)
    ensures Verify(msg.wire, CreateSignature(msg, time, key, mac), key, mac)
  {
    var rec := CreateSignature(msg, time, key, mac);
    var t := ParseRdata(rec.rdata).value;
    FromNameAsName(key.algorithm, t.algorithmName);
    CanonicalIdempotent(AsName(key.algorithm));
    assert CanonicalWire(t.algorithmName) == CanonicalWire(AsName(key.algorithm));
    EmitU48Truncates(time);
    var signed := TsigRdata(AsName(key.algorithm), time, FUDGE, [], msg.id, NO_ERROR, []);
    VariablesAgree(key.name, CLASS_ANY, 0, t, signed);
    var input := MacInput(msg, key, time);
    assert input == input[..|msg.wire|] + input[|msg.wire|..];
  }

  /** The variables depend on the algorithm name and the time only through
      their encodings. */
  lemma VariablesAgree(owner: Name, dnsClass: u16, ttl: u32, a: TsigRdata, b: TsigRdata)
    requires |a.otherData| < 0x1_0000
    requires CanonicalWire(a.algorithmName) == CanonicalWire(b.algorithmName)
    requires EmitU48(a.timeSigned) == EmitU48(b.timeSigned)
    requires a.fudge == b.fudge && a.error == b.error && a.otherData == b.otherData
    ensures Variables(owner, dnsClass, ttl, a) == Variables(owner, dnsClass, ttl, b)
  {
  }

  /** The other-data field of the older variant never reaches the wire:
      RDATA does not depend on it and always ends in a zero other-length. */
  lemma OtherDataNeverEmitted(t: TsigRdata, other: seq<byte>)
    ensures EmitRdata(t.(otherData := other)) == EmitRdata(t)
    ensures var b := EmitRdata(t); b[|b| - 2..] == [0, 0]
  {
  }
}

=== FILE: wrappers.dfy ===
/** Option and Result datatypes for the error paths of the daemon. */
module Wrappers {

  /** An optional value, as Rust's `Option`. */
  datatype Option<+T> = None | Some(value: T) {

    /** The encapsulated value, or `default` if there is none. */
    function GetOr(default: T): T {
      match this
      case Some(v) => v
      case None => default
    }
  }

  /** A value or an error, as Rust's `Result` (and the panics the source raises). */
  datatype Result<+R, +E> = Success(value: R) | Failure(error: E)
}
